=== FILE: README.md ===
# Paper-review backend: a Dafny model of its core logic

The backend takes an uploaded paper (a PDF) and runs one language-model
"reviewer" per configured persona over it: editor overview, methodology,
novelty, clarity and reproducibility. It collects each reviewer's comments
and anchors every quoted citation to rectangles on the PDF's pages, so the
front end can highlight them. This project models the deterministic logic
in `backend/main.py` and proves properties of it:

- **Text extraction** (`Extraction`). The full text is assembled with a
  `--- Page n ---` header before each page. The paper title comes from the
  first page: the first of its first five lines whose stripped length is
  strictly between 10 and 200. `get_sampled_content` concatenates pages
  under `=== PAGE n ===` headers. Despite its `max_chars` parameter, it
  truncates nothing.
- **Citation locator** (`Locator`), which models `find_text_in_pdf`.
  - Quotes shorter than 5 characters after stripping are not searched.
  - Pages are searched hinted page first, then in document order, and the
    search stops at the first page with a hit.
  - If nothing is found and the stripped quote is longer than 20
    characters, one retry searches for its first 50 characters.
  - The PDF library's `search_for` is an oracle `(page index, needle) ->
    rectangles`. Every call returns the list of probes it made, so "not
    searched" and "stops at the first hit" can be stated and proved.
- **Model replies** (`Reply`).
  - The JSON payload is cut out of a ```` ```json ```` or ```` ``` ````
    fence by the same splits the source uses.
  - A reply that does not parse falls back to `{"summary": content,
    "comments": []}`.
  - A reviewer's summary is the first present key of a fixed chain.
- **The analysis fold** (`Review`, `ReviewProperties`), which models
  `analyze_paper`. It is a left fold over the requested reviewer types:
  - It skips unknown types.
  - It numbers highlights `highlight_0, highlight_1, ...` from one counter.
  - It gives comments the id `<type>_<i>`.
  - It links each citation to the first highlight found for its quote.
  - It records one reviewer entry per known type, with status completed or
    error.

Python string semantics are written out in `Text`:
- `str.strip` uses Python's whitespace set.
- `split` on a separator, `split(sep)[0]`, `split(sep)[1]` and `in` are
  modelled as in Python.
- Slices clamp to the length.
- `str(n)` is modelled for naturals.

The model call of reviewer number `i` in the request is the abstract
outcome `llm(i)`: `Ok(parsed reply)` or `Err(message)`.

Comment ids are guaranteed unique when no known type is requested twice
(`ReviewProperties.CommentIdsUnique`). A type requested twice whose calls
both return comments repeats an id
(`ReviewProperties.RepeatedTypeRepeatsIds`). The source does not reject
such requests.

The nested split `content.split("```json")[1].split("```")[0]` is not
the same as cutting at the first fence after the opening one. The outer
split first cuts the text at the next ```` ```json ````, and a backtick
just before that one can then hide a fence from the inner split. So the
```` ```json ```` branch is pinned to exactly what the splits do: the
window runs from the first ```` ```json ```` to the next one (or the end),
and the body stops where the first fence lying wholly inside that window
begins (`Reply.JsonFenceCut`, unique by `Reply.CutAtFenceUnique`). The
plain ```` ``` ```` branch is exactly the text from the first fence to the
next. `Reply.Payload` is that body with surrounding whitespace removed, and
a well-formed ```` ```json ```` block round-trips (`Reply.JsonFenceRoundTrip`).

Files: `wrappers.dfy`, `text.dfy`, `extraction.dfy`, `locator.dfy`,
`reply.dfy`, `review.dfy`, `review_properties.dfy`.

## Model

| member | source | states |
|---|---|---|
| Text.Strip | backend/main.py:319-322 | `str.strip`: the result has no leading or trailing Python whitespace and is no longer than the input |
| Text.StripIsSlice | backend/main.py:319-322 | the stripped string is a contiguous slice of the input, with only whitespace cut off on either side |
| Text.StripUnique | backend/main.py:319-322 | a stripped string sitting in `s` with only whitespace on either side is `s.strip()`, so the slice characterisation determines the result |
| Text.StripIdempotent | backend/main.py:319-322 | stripping twice is the same as stripping once |
| Text.Split | backend/main.py:319 | `split('\n')` yields at least one part, no part contains the separator, and joining the parts with it gives back the input |
| Text.Find | backend/main.py:498-501 | the first occurrence of the pattern, present exactly when the pattern is `in` the string |
| Text.Before | backend/main.py:499-501 | `split(sep)[0]` is a prefix without the separator, no separator starts anywhere before its end, and it is either the whole string or followed by the separator |
| Text.SplitSecond | backend/main.py:499-501 | `split(sep)[1]` starts right after the first separator and runs to the next separator starting at or after that point (or to the end), with no separator starting before its end |
| Text.RunsToNextIsFind | backend/main.py:499-501 | the end of such a run is unique: it is where the forward search for the next separator stops, or the end of the string |
| Text.ParseNatToString | backend/main.py:288 | the decimal digits of `str(n)` read back as `n` |
| Text.NatToStringInjective | backend/main.py:288 | different page numbers print differently |
| Extraction.AssembleLength | backend/main.py:286-288 | the full text is exactly as long as all headers plus all page texts |
| Extraction.AssembleRecovers | backend/main.py:286-288 | every page's text appears in the full text, right after its own header, at its computed offset |
| Extraction.AssembleRecoversAll | backend/main.py:286-288 | every page's text is recovered after its header in the assembled text |
| Extraction.Numbered | backend/main.py:305-308 | page `i` of the document, counted from 0, is recorded as page `i + 1` with its text, and every page is recorded |
| Extraction.ExtractText | backend/main.py:277-326 | pages are numbered from 1 in document order; each page's text follows its `--- Page n ---` header in the full text, whose length is exactly all headers plus all page texts; no pages gives an empty text and an empty title; the title is the first page's |
| Extraction.FirstCandidate | backend/main.py:320-323 | the index of the first of the lines whose stripped length is strictly between 10 and 200, or the number of lines when none is |
| Extraction.PageTitle | backend/main.py:317-323 | the title is the stripped first candidate among the first five lines of the stripped first page, every earlier line failing the length test; otherwise `""`; a title is stripped, has no newline and is 11 to 199 characters long |
| Extraction.SampledContent | backend/main.py:329-345 | no pages returns the full text unchanged; otherwise every page's text follows its `=== PAGE n ===` header, and the result is exactly as long as all headers plus all page texts, so nothing is cut |
| Extraction.SampledContentIgnoresBudget | backend/main.py:329-345 | the sampled content does not depend on `max_chars` |
| Locator.IndicesExcept | backend/main.py:363 | the pages other than the skipped one, increasing, each exactly once |
| Locator.SearchOrder | backend/main.py:360-363 | a permutation of the page indices; a hint in `1..n` puts page `hint-1` first, then the rest in order; any other hint (absent, 0, negative, too large) gives plain document order |
| Locator.Scan | backend/main.py:365-382 | one pass: the hits are all rectangles of the first page in search order where the needle is found, tagged with that page's 1-based number and size; the probes are the pages asked, up to and including that page |
| Locator.Passes | backend/main.py:384-401 | the exact pass decides unless it finds nothing and the needle is over 20 characters; then its probes come first and a full pass for the 50-character prefix follows |
| Locator.Locate | backend/main.py:348-404 | a stripped quote under 5 characters probes nothing and finds nothing; otherwise the exact pass decides unless it misses everywhere and the quote is over 20 characters, in which case every page is probed and then a pass for the first 50 characters follows |
| Locator.ScanFirstPage | backend/main.py:365-382 | a pass's hits all lie on the first page in search order where the oracle answered |
| Locator.LocateSinglePage | backend/main.py:365-401 | every call's hits lie on one page, the first page in search order answering for the needle used |
| Locator.LocateFindsPresentQuote | backend/main.py:365-382 | a quote of at least 5 characters that some page contains is found by the exact pass, and no retry needle is probed |
| Locator.LocatePrefersHint | backend/main.py:360-382 | when the hinted page contains the quote, it is the only page asked and all hits come from it |
| Locator.ScanNeedles | backend/main.py:365-369 | a pass makes no more probes than there are pages in its order, each with that pass's needle |
| Locator.RetryProbes | backend/main.py:384-401 | after an exact pass that misses, every probe past the first pass uses the 50-character prefix |
| Locator.LocateRetryOnlyAfterMiss | backend/main.py:384-386 | a probe with a needle other than the stripped quote happens only after every page has been asked in vain and only for quotes over 20 characters |
| Locator.LocateNotFound | backend/main.py:383-404 | when the exact pass misses on every page and, for a quote over 20 characters, the prefix pass misses too, no rectangles are returned |
| Reply.PageHint | backend/main.py:627 | a missing page reads as page 1, `null` as no page, and a number as itself |
| Reply.FencedBody | backend/main.py:498-503 | with a `` ```json `` fence, the body starts right after the first one, holds no fence, ends at a fence or the end, and is the window up to the next `` ```json `` cut at its first fence; otherwise with a fence, exactly the text from the first fence to the next; without any fence, the reply itself |
| Reply.JsonFenceBody | backend/main.py:498-499 | the `` ```json `` branch's body starts right after the first `` ```json ``, contains no fence and ends at a fence or at the end |
| Reply.JsonFenceCut | backend/main.py:498-499 | the `` ```json `` branch's body is its window, from the first `` ```json `` to the next one or the end, cut where the first fence wholly inside the window begins |
| Reply.CutAtFenceUnique | backend/main.py:499 | a window has only one such cut, so the body is determined |
| Reply.PlainFenceBody | backend/main.py:500-501 | with a plain `` ``` `` fence only, the body is exactly the text from the first fence up to the next fence starting at or after it, or the end |
| Reply.Payload | backend/main.py:498-505 | the payload is the fenced body with only whitespace removed from either end, and is itself stripped; it contains no fence when the reply had one and is the stripped reply otherwise |
| Reply.JsonFenceRoundTrip | backend/main.py:498-505 | a stripped, fence-free payload wrapped in a `` ```json `` block is recovered exactly |
| Reply.UnfencedRoundTrip | backend/main.py:502-505 | a reply without fences is only stripped |
| Reply.FirstPresent | backend/main.py:668 | the value of the first present key of the chain, and `""` when none is present |
| Reply.SummaryOf | backend/main.py:668 | the summary is the value of the first of `summary`, `assessment`, `methodology_assessment`, `novelty_assessment`, `clarity_assessment`, `reproducibility_assessment` present in the reply, each earlier key absent, and `""` when none is present |
| Reply.Decode | backend/main.py:505-510 | a payload the parser accepts is the result; otherwise the result has no comments and only a `summary` field holding the raw reply |
| Reply.UnparsedReplySummary | backend/main.py:505-510 | an unparsable reply's summary is the whole reply |
| Review.HighlightIdRoundTrip | backend/main.py:639 | the counter is recovered from `highlight_<k>` |
| Review.HighlightIdsDiffer | backend/main.py:639-642 | different counter values give different highlight ids |
| Review.CommentIdRoundTrip | backend/main.py:653 | `<type>_<i>` splits at its last underscore back into the type and the digits of `i` |
| Review.CommentIdsDiffer | backend/main.py:653 | a different type or position gives a different comment id |
| Review.Tag | backend/main.py:638-644 | one highlight per located rectangle, in order, numbered from the counter, tied to the comment, keeping the rectangle, page and size and the first 100 characters of the quote |
| Review.ResolveCitation | backend/main.py:623-650 | a non-empty quote is located with the citation's page hint; the citation points at the first new highlight and takes its page, or keeps the hint with no highlight id when nothing is found |
| Review.ResolveAll | backend/main.py:622-650 | the same as `ResolveCitations` for any search function: kept citations in order, highlights exactly what was found for them, each keeping the first 100 characters of its own citation's quote, numbered from the counter, each citation naming the first highlight of its own search when that search found something |
| Review.StartsAreOwn | backend/main.py:625-644 | the rectangles found for kept citation `m` sit, in order, at that citation's own start in everything found for the comment, so the highlight at the start is the first rectangle of its own search |
| Review.ResolveCitations | backend/main.py:622-650 | citations with empty quotes are dropped and the rest kept in order; the highlights are exactly the rectangles located for the kept citations, in order, numbered consecutively, tied to the comment and each keeping the first 100 characters of the quote of the citation whose search found it; each kept citation names a highlight exactly when its own search found something, and then names the first highlight made from that search and takes its page, otherwise keeps its page hint; the named highlight was made for that citation's quote |
| Review.ProcessComment | backend/main.py:618-663 | id `<type>_<i>`, defaults "Comment", "" and "info"; its highlights are exactly the rectangles located for its kept citations, each keeping the first 100 characters of its own citation's quote, each citation resolved from its own search and naming the first highlight made from it; the comment's page is the first rectangle's, otherwise its own page hint; the comment is consistent with its highlights |
| Review.ProcessComments | backend/main.py:617-663 | one comment per reply comment, each processed from the reply comment at the same position (its highlights keeping their own citations' clipped quotes, its citations naming the first highlight of their own searches), with ids `<type>_0, <type>_1, ...`; the batch's highlights are exactly the comments' highlights in order, numbered from the counter |
| Review.Record | backend/main.py:664-678 | the entry carries the type with its configured name and icon; it is completed exactly when the call succeeded, with the summary chain's value, and otherwise an error entry with summary `Error: <message>` |
| Review.Contributed | backend/main.py:614-663 | a failed call contributes nothing; a successful one gives one comment per comment of the reply, each processed from it (highlights keeping their own citations' clipped quotes, citations naming the first highlight of their own searches), with ids `<type>_0, <type>_1, ...`, each consistent, whose highlights are numbered on from the counter |
| Review.Step | backend/main.py:607-678 | an unknown type leaves the state as it was; a known type adds its reviewer entry; the earlier comments stay in place and after them come exactly the reply's comments, one per reply comment, each processed from the reply comment at its position with id `<type>_<k>`; a failed call adds no comments or highlights; consistency is kept |
| Review.RunStep | backend/main.py:607-678 | the fold over `types` is the fold over all but the last type followed by one step for the last one: the same analysis for an unknown type, otherwise one more entry, and the earlier comments followed by those made from the last reply |
| Review.KnownPositions | backend/main.py:607-609 | the request positions holding a configured type, increasing, and all of them |
| Review.Run | backend/main.py:599-678 | the number of comments is the total number of reply comments over the known requested types whose call succeeded; the result is consistent: the counter equals the number of highlights, highlight ids are `highlight_0, highlight_1, ...` in order, the highlight list is exactly the comments' highlights in order, and every comment is consistent with its highlights |
| Review.RunRecords | backend/main.py:607-678 | exactly one reviewer entry per known requested type, in request order, each matching that position's outcome |
| Review.RunComments | backend/main.py:607-662 | every comment comes from a known requested type whose call succeeded, and its id is `<type>_<n>` |
| Review.RunCommentsComplete | backend/main.py:607-662 | for every known requested type whose call succeeded and every comment `k` of its reply, the analysis holds, right after the comments of the earlier positions, the comment processed from it, with id `<type>_<k>` |
| Review.RunCommentsSound | backend/main.py:607-662 | every comment of the analysis was processed from some comment `k` of the reply to some known requested type whose call succeeded, and has id `<type>_<k>` |
| Review.Analyze | backend/main.py:596-607 | with no types requested, the configured types run in registry order; otherwise exactly the requested ones; the result is consistent |
| ReviewProperties.HighlightIdsUnique | backend/main.py:638-643 | all highlight ids of an analysis are pairwise distinct |
| ReviewProperties.HighlightsOwned | backend/main.py:638-662 | every highlight's `comment_id` is the id of a comment of the analysis |
| ReviewProperties.CitationsResolve | backend/main.py:627-650 | every citation has a non-empty quote; a citation's highlight id names a highlight in the analysis that belongs to the same comment, was made for that citation's quote, and lies on the page the citation reports |
| ReviewProperties.CitationsNameFirstFound | backend/main.py:627-650 | in an analysis, a citation that names a highlight names the one made from the first rectangle its own search found, within the comment processed from the reply comment it came from |
| ReviewProperties.CommentIdsUnique | backend/main.py:607-653 | with no known type requested twice, comment ids are pairwise distinct |
| ReviewProperties.RepeatedTypeRepeatsIds | backend/main.py:607-653 | requesting a type twice repeats the id of its first comment |
| ReviewProperties.FailedReviewerSilent | backend/main.py:614-678 | a reviewer whose call failed contributes no comments when no other request position holds its type |
| ReviewProperties.DefaultRunsEveryReviewer | backend/main.py:596-597 | with no types requested, the five configured reviewers run in registry order, each entry matches its outcome, and comment ids are unique |
| ReviewProperties.AllKnownRecorded | backend/main.py:607-678 | when every requested type is known, there is exactly one reviewer entry per request position, in order, each matching that position's outcome |

## Left out

- HTTP routing, CORS, upload and storage, `reviews_db`, the PDF download and the `analyzed` status update: framework and storage glue with no logic of its own.
- PDF parsing (`page.get_text`, spans, fonts, the `pages_data` map) and the geometry of `search_for`: a foreign library. Searching is an oracle, and rectangles and page sizes are opaque real values that are passed through and never computed on.
- The HTTP call to the model service, its API key, and the mock reply returned without a key. The call is the outcome `llm(i)`, and `json.loads` is a parser passed to `Reply.Decode`.
- Prompt templates, their `str.format` substitution, and the reviewers' descriptions: configuration text. The registry keeps each reviewer's name and icon.
- The subscription webhook and subscription lookup endpoints: network I/O.
- Review.Run: a failure raised in the middle of a reviewer is not modelled. In the source, `find_text_in_pdf` raising or a malformed comment would leave earlier comments and highlights appended and still record an error entry. The model's only failure point is the model call.
- Review.Run: JSON values are modelled with the types the code expects. Summary-chain fields and comment fields are strings or absent. Page hints are absent, null or an integer, so a hint given as a float or a string is not modelled.
- Extraction.ExtractText: the upload endpoint's fallback from an empty title to the file name is not modelled, because it lies outside the extraction function.
- Extraction.SampledContent: `max_chars` is accepted and ignored, as in the source.
- CitationsResolve: it holds for every consistent analysis, whatever search made it, so it does not say which of a citation's highlights is named. That the named highlight is the first one its own search found is stated for the analyses the fold produces by `ReviewProperties.CitationsNameFirstFound`.

=== FILE: extraction.dfy ===
/** What the backend derives from a parsed PDF's per-page text
    (`extract_text_from_pdf` and `get_sampled_content`): the headed
    full text, the per-page records, the title guess and the prompt
    content handed to every reviewer. The PDF parser itself is outside
    the model; a document is the sequence of its pages' `get_text()`. */
module Extraction {
  import opened Wrappers
  import opened Text

  /** One entry of `pages_text`: a 1-based page number and its text. */
  datatype PageText = PageText(page: nat, text: string)

  /** The two page-header styles: `--- Page n ---` in the full text,
      `=== PAGE n ===` in the reviewers' prompt content. */
  datatype HeaderStyle = Rule | Banner

  function Header(style: HeaderStyle, n: nat): string {
    match style
    case Rule => "\n--- Page " + NatToString(n) + " ---\n"
    case Banner => "\n\n=== PAGE " + NatToString(n) + " ===\n"
  }

  /** Every page's header followed by its text, in page order. */
  function Assemble(style: HeaderStyle, pages: seq<PageText>): string
  {
    if |pages| == 0 then ""
    else
      var last := pages[|pages| - 1];
      Assemble(style, pages[..|pages| - 1]) + Header(style, last.page) + last.text
  }

  /** Where page `k`'s text begins inside `Assemble(style, pages)`. */
  function TextStart(style: HeaderStyle, pages: seq<PageText>, k: nat): nat
    requires k < |pages|
  {
    |Assemble(style, pages[..k])| + |Header(style, pages[k].page)|
  }

  function TotalText(pages: seq<PageText>): nat
  {
    if |pages| == 0 then 0 else TotalText(pages[..|pages| - 1]) + |pages[|pages| - 1].text|
  }

  function TotalHeaders(style: HeaderStyle, pages: seq<PageText>): nat
  {
    if |pages| == 0 then 0
    else TotalHeaders(style, pages[..|pages| - 1]) + |Header(style, pages[|pages| - 1].page)|
  }

  /** Nothing is cut: the assembled text is exactly as long as all headers
      and all page texts together. */
  lemma {:induction false} AssembleLength(style: HeaderStyle, pages: seq<PageText>)
    ensures |Assemble(style, pages)| == TotalHeaders(style, pages) + TotalText(pages)
  {
    if |pages| > 0 {
      AssembleLength(style, pages[..|pages| - 1]);
    }
  }

  /** Assembling a prefix of the pages yields a prefix of the whole. */
  lemma {:induction false} AssemblePrefix(style: HeaderStyle, pages: seq<PageText>, k: nat)
    requires k <= |pages|
    ensures |Assemble(style, pages[..k])| <= |Assemble(style, pages)|
    ensures Assemble(style, pages[..k]) == Assemble(style, pages)[..|Assemble(style, pages[..k])|]
    decreases |pages|
  {
    if k < |pages| {
      var init := pages[..|pages| - 1];
      assert init[..k] == pages[..k];
      AssemblePrefix(style, init, k);
    } else {
      assert pages[..k] == pages;
    }
  }

  /** `header` ends at `start` inside `whole` and `text` begins there. */
  predicate HeadedAt(whole: string, header: string, start: nat, text: string) {
    && |header| <= start
    && start + |text| <= |whole|
    && whole[start - |header|..start] == header
    && whole[start..start + |text|] == text
  }

  /** Assembling the first `k + 1` pages adds page `k` to the first `k`. */
  lemma AssembleLast(style: HeaderStyle, pages: seq<PageText>, k: nat)
    requires k < |pages|
    ensures Assemble(style, pages[..k + 1]) ==
            Assemble(style, pages[..k]) + Header(style, pages[k].page) + pages[k].text
  {
    var upto := pages[..k + 1];
    assert upto[..k] == pages[..k];
    assert upto[k] == pages[k];
  }

  /** Each page can be read back from the assembled text: its header sits
      right before `TextStart` and its text right after. */
  lemma AssembleRecovers(style: HeaderStyle, pages: seq<PageText>, k: nat)
    requires k < |pages|
    ensures HeadedAt(Assemble(style, pages), Header(style, pages[k].page), TextStart(style, pages, k), pages[k].text)
  {
    AssemblePrefix(style, pages, k + 1);
    AssembleLast(style, pages, k);
    PieceOfPrefix(Assemble(style, pages), Assemble(style, pages[..k + 1]),
                  Assemble(style, pages[..k]), Header(style, pages[k].page), pages[k].text,
                  TextStart(style, pages, k));
  }

  lemma AssembleRecoversAll(style: HeaderStyle, pages: seq<PageText>)
    ensures forall k :: 0 <= k < |pages| ==>
              HeadedAt(Assemble(style, pages), Header(style, pages[k].page), TextStart(style, pages, k), pages[k].text)
  {
    forall k | 0 <= k < |pages|
      ensures HeadedAt(Assemble(style, pages), Header(style, pages[k].page), TextStart(style, pages, k), pages[k].text)
    {
      AssembleRecovers(style, pages, k);
    }
  }

  /** In a three-piece prefix of `whole`, the middle piece heads the last. */
  lemma PieceOfPrefix(whole: string, part: string, a: string, b: string, c: string, start: nat)
    requires part == a + b + c && start == |a| + |b|
    requires |part| <= |whole| && part == whole[..|part|]
    ensures HeadedAt(whole, b, start, c)
  {
    assert whole[|a|..|a| + |b|] == part[|a|..|a| + |b|];
    assert whole[|a| + |b|..|a| + |b| + |c|] == part[|a| + |b|..|part|];
  }

  // ---------------------------------------------------------------------
  // extract_text_from_pdf

  /** `pages_text`: page `i` (0-based) is recorded as page `i + 1`. */
  function Numbered(texts: seq<string>): (pages: seq<PageText>)
    ensures |pages| == |texts|
    ensures forall i :: 0 <= i < |texts| ==> pages[i] == PageText(i + 1, texts[i])
  {
    seq(|texts|, i requires 0 <= i < |texts| => PageText(i + 1, texts[i]))
  }

  const TitleLinesScanned: nat := 5
  const TitleMinExclusive: nat := 10
  const TitleMaxExclusive: nat := 200

  /** A line is a title candidate when its stripped length lies strictly
      between the two bounds. */
  predicate TitleCandidate(line: string) {
    TitleMinExclusive < |Strip(line)| < TitleMaxExclusive
  }

  /** The lines the title heuristic inspects: at most the first five lines
      of the stripped first-page text. */
  function TitleLines(text: string): (lines: seq<string>)
  {
    var all := Split(Strip(text), '\n');
    all[..Min(TitleLinesScanned, |all|)]
  }

  /** The position of the first line satisfying `test`, or `|lines|`. */
  function FirstWhere(lines: seq<string>, test: string -> bool): (k: nat)
    ensures k <= |lines|
    ensures k < |lines| ==> test(lines[k])
    ensures forall j :: 0 <= j < k ==> !test(lines[j])
  {
    if |lines| == 0 || test(lines[0]) then 0
    else
      var k := FirstWhere(lines[1..], test);
      assert forall j :: 1 <= j < |lines| ==> lines[j] == lines[1..][j - 1];
      k + 1
  }

  /** The position of the first title candidate, or `|lines|` when none is. */
  function FirstCandidate(lines: seq<string>): (k: nat)
    ensures k <= |lines|
    ensures k < |lines| ==> TitleCandidate(lines[k])
    ensures forall j :: 0 <= j < k ==> !TitleCandidate(lines[j])
  {
    FirstWhere(lines, TitleCandidate)
  }

  /** The title guessed from the first page's text: the stripped first line,
      among the first five, whose stripped length is strictly between 10
      and 200; `""` when there is none. */
  function PageTitle(text: string): (t: string)
    ensures var lines := TitleLines(text);
            && |lines| <= TitleLinesScanned
            && (t == "" <==> forall k :: 0 <= k < |lines| ==> !TitleCandidate(lines[k]))
            && (t != "" ==> exists k :: 0 <= k < |lines| && TitleCandidate(lines[k]) && t == Strip(lines[k])
                                         && forall j :: 0 <= j < k ==> !TitleCandidate(lines[j]))
    ensures t == "" || (TitleMinExclusive < |t| < TitleMaxExclusive && IsStripped(t) && '\n' !in t)
  {
    var lines := TitleLines(text);
    var k := FirstCandidate(lines);
    if k == |lines| then ""
    else
      var t := Strip(lines[k]);
      var all := Split(Strip(text), '\n');
      assert lines[k] == all[k];
      StripKeepsOut(lines[k], '\n');
      t
  }

  /** Stripping never introduces a character. */
  lemma StripKeepsOut(s: string, c: char)
    requires c !in s
    ensures c !in Strip(s)
  {
    var t := Strip(s);
    StripIsSlice(s);
    var i :| PaddedAt(s, t, i);
    assert forall m :: 0 <= m < |t| ==> t[m] == s[i + m];
  }

  lemma NumberedPageRecovers(texts: seq<string>, i: nat)
    requires i < |texts|
    ensures HeadedAt(Assemble(Rule, Numbered(texts)), Header(Rule, i + 1), TextStart(Rule, Numbered(texts), i), texts[i])
  {
    var pages := Numbered(texts);
    assert pages[i] == PageText(i + 1, texts[i]);
    AssembleRecovers(Rule, pages, i);
  }

  datatype Extracted = Extracted(fullText: string, title: string, pagesText: seq<PageText>)

  /** The text-only part of `extract_text_from_pdf`, given each page's
      extracted text in page order. */
  function ExtractText(texts: seq<string>): (e: Extracted)
    ensures e.pagesText == Numbered(texts)
    ensures forall i :: 0 <= i < |texts| ==>
              HeadedAt(e.fullText, Header(Rule, i + 1), TextStart(Rule, e.pagesText, i), texts[i])
    ensures |e.fullText| == TotalHeaders(Rule, e.pagesText) + TotalText(e.pagesText)
    ensures |texts| == 0 ==> e.fullText == "" && e.title == ""
    ensures |texts| > 0 ==> e.title == PageTitle(texts[0])
  {
    var pages := Numbered(texts);
    AssembleLength(Rule, pages);
    assert forall i :: 0 <= i < |texts| ==>
             HeadedAt(Assemble(Rule, pages), Header(Rule, i + 1), TextStart(Rule, pages, i), texts[i]) by {
      forall i | 0 <= i < |texts|
        ensures HeadedAt(Assemble(Rule, pages), Header(Rule, i + 1), TextStart(Rule, pages, i), texts[i]) {
        NumberedPageRecovers(texts, i);
      }
    }
    Extracted(Assemble(Rule, pages), if |texts| == 0 then "" else PageTitle(texts[0]), pages)
  }

  // ---------------------------------------------------------------------
  // get_sampled_content

  /** The content handed to every reviewer: the full text when there are
      no page records, otherwise every page under its `=== PAGE n ===`
      banner. `maxChars` is accepted and ignored: nothing is truncated. */
  function SampledContent(fullText: string, pages: seq<PageText>, maxChars: int): (r: string)
    ensures |pages| == 0 ==> r == fullText
    ensures |pages| > 0 ==> |r| == TotalHeaders(Banner, pages) + TotalText(pages)
    ensures |pages| > 0 ==> forall k :: 0 <= k < |pages| ==>
              HeadedAt(r, Header(Banner, pages[k].page), TextStart(Banner, pages, k), pages[k].text)
  {
    if |pages| == 0 then fullText
    else
      AssembleLength(Banner, pages);
      AssembleRecoversAll(Banner, pages);
      Assemble(Banner, pages)
  }

  /** The prompt content does not depend on the character budget. */
  lemma SampledContentIgnoresBudget(fullText: string, pages: seq<PageText>, m1: int, m2: int)
    ensures SampledContent(fullText, pages, m1) == SampledContent(fullText, pages, m2)
  {
  }
}

=== FILE: locator.dfy ===
/** `find_text_in_pdf`: the policy that turns a reviewer's quote into
    highlight rectangles. PyMuPDF's `page.search_for` is an oracle
    `search(pageIndex, needle)` returning that page's hit rectangles in the
    library's order; the locator decides which pages to ask, with which
    needle, and when to stop. Every oracle call is recorded as a `Probe`,
    so "asked nothing" and "stopped at the first hit" are statements about
    the result. */
module Locator {
  import opened Wrappers
  import opened Text

  /** A rectangle as the PDF library reports it; its coordinates are opaque. */
  datatype Rect = Rect(x0: real, y0: real, x1: real, y1: real)

  /** A page's size (`page.rect.width`, `page.rect.height`). */
  datatype PageBox = PageBox(width: real, height: real)

  /** One highlight rectangle: the rectangle, its 1-based page and that
      page's size. */
  datatype Hit = Hit(rect: Rect, page: nat, width: real, height: real)

  /** One call `search(page, needle)` of the oracle. */
  datatype Probe = Probe(page: nat, needle: string)

  datatype Search = Search(hits: seq<Hit>, probes: seq<Probe>)

  type Oracle = (nat, string) -> seq<Rect>

  /** Quotes shorter than this (after stripping) are not searched for. */
  const MinQuoteLength: nat := 5
  /** Only quotes longer than this get the prefix retry. */
  const RetryMinLength: nat := 20
  /** The retry searches for this many leading characters. */
  const RetryPrefixLength: nat := 50

  // ---------------------------------------------------------------------
  // Search order

  /** Python truthiness of the page hint: `None` and `0` are false. */
  predicate Truthy(hint: Option<int>) {
    hint.Some? && hint.value != 0
  }

  /** The hint names a page of an `n`-page document (1-based). */
  predicate HintInRange(hint: Option<int>, n: nat) {
    hint.Some? && 1 <= hint.value <= n
  }

  predicate Increasing(s: seq<nat>) {
    forall i, j :: 0 <= i < j < |s| ==> s[i] < s[j]
  }

  /** `order` lists each page index `0..n-1` exactly once. */
  predicate IsPageOrder(order: seq<nat>, n: nat) {
    && |order| == n
    && (forall k :: 0 <= k < |order| ==> order[k] < n)
    && (forall j, k :: 0 <= j < k < |order| ==> order[j] != order[k])
    && (forall p: nat :: p < n ==> p in order)
  }

  /** `0, 1, ..., n-1`. */
  function Range(n: nat): (r: seq<nat>)
    ensures |r| == n
    ensures forall k :: 0 <= k < n ==> r[k] == k
  {
    if n == 0 then [] else Range(n - 1) + [n - 1]
  }

  /** `[i for i in range(n) if i != skip]`. */
  function IndicesExcept(n: nat, skip: int): (r: seq<nat>)
    ensures Increasing(r)
    ensures forall k :: 0 <= k < |r| ==> r[k] < n && r[k] != skip
    ensures forall p: nat :: p < n && p != skip ==> p in r
    ensures |r| == if 0 <= skip < n then n - 1 else n
  {
    if n == 0 then []
    else
      var init := IndicesExcept(n - 1, skip);
      if n - 1 == skip then init else init + [n - 1]
  }

  lemma {:induction false} IndicesExceptAll(n: nat, skip: int)
    requires skip < 0 || n <= skip
    ensures IndicesExcept(n, skip) == Range(n)
  {
    if n > 0 {
      IndicesExceptAll(n - 1, skip);
    }
  }

  /** Plain document order lists every page once. */
  lemma RangeIsPageOrder(n: nat)
    ensures IsPageOrder(Range(n), n)
  {
    var r := Range(n);
    forall p: nat | p < n ensures p in r {
      assert r[p] == p;
    }
  }

  /** The hinted page followed by all the others lists every page once. */
  lemma HintedOrder(n: nat, h: int)
    requires 1 <= h <= n
    ensures IsPageOrder([h - 1] + IndicesExcept(n, h - 1), n)
  {
    var rest := IndicesExcept(n, h - 1);
    var order := [h - 1] + rest;
    forall j, k | 0 <= j < k < |order| ensures order[j] != order[k] {
      assert order[k] == rest[k - 1];
      if j > 0 { assert order[j] == rest[j - 1]; }
    }
    forall p: nat | p < n ensures p in order {
      if p != h - 1 {
        assert p in rest;
        var k :| 0 <= k < |rest| && rest[k] == p;
        assert order[k + 1] == p;
      } else {
        assert order[0] == p;
      }
    }
  }

  /** The pages in the order they are searched: the hinted page first when
      the hint names a page, then every other page in document order. */
  function SearchOrder(n: nat, hint: Option<int>): (order: seq<nat>)
    ensures IsPageOrder(order, n)
    ensures HintInRange(hint, n) ==> order[0] == hint.value - 1 && Increasing(order[1..])
    ensures !HintInRange(hint, n) ==> forall k :: 0 <= k < n ==> order[k] == k
  {
    var skip := if Truthy(hint) then hint.value - 1 else -1;
    var rest := IndicesExcept(n, skip);
    if Truthy(hint) && 1 <= hint.value <= n then
      HintedOrder(n, hint.value);
      assert ([hint.value - 1] + rest)[1..] == rest;
      [hint.value - 1] + rest
    else
      IndicesExceptAll(n, skip);
      RangeIsPageOrder(n);
      rest
  }

  // ---------------------------------------------------------------------
  // One pass over the pages

  /** The oracle finds nothing for `needle` on any page of `order`. */
  ghost predicate Misses(search: Oracle, order: seq<nat>, needle: string) {
    forall k :: 0 <= k < |order| ==> search(order[k], needle) == []
  }

  /** `order[k]` is the first page of `order` where `needle` is found. */
  ghost predicate FirstHitAt(search: Oracle, order: seq<nat>, needle: string, k: int) {
    && 0 <= k < |order|
    && search(order[k], needle) != []
    && forall j :: 0 <= j < k ==> search(order[j], needle) == []
  }

  /** The probes of asking for `needle` on each page of `order` in turn. */
  function ProbesOf(order: seq<nat>, needle: string): (ps: seq<Probe>)
    ensures |ps| == |order|
    ensures forall k :: 0 <= k < |order| ==> ps[k] == Probe(order[k], needle)
  {
    seq(|order|, k requires 0 <= k < |order| => Probe(order[k], needle))
  }

  /** `rects`, found on page index `p`, become hits on page `p + 1`
      carrying that page's size, in the oracle's order. */
  ghost predicate HitsFrom(pages: seq<PageBox>, p: nat, rects: seq<Rect>, hits: seq<Hit>)
    requires p < |pages|
  {
    && |hits| == |rects|
    && forall i :: 0 <= i < |hits| ==> hits[i] == Hit(rects[i], p + 1, pages[p].width, pages[p].height)
  }

  function HitsOn(pages: seq<PageBox>, p: nat, rects: seq<Rect>): (hits: seq<Hit>)
    requires p < |pages|
    ensures HitsFrom(pages, p, rects, hits)
  {
    seq(|rects|, i requires 0 <= i < |rects| => Hit(rects[i], p + 1, pages[p].width, pages[p].height))
  }

  /** A search pass whose outcome is: nothing found after asking every page,
      or the hits of the first page that answered, after asking exactly the
      pages up to it. */
  ghost predicate PassOutcome(pages: seq<PageBox>, search: Oracle, order: seq<nat>, needle: string, r: Search)
    requires forall k :: 0 <= k < |order| ==> order[k] < |pages|
  {
    && (Misses(search, order, needle) ==> r.hits == [] && r.probes == ProbesOf(order, needle))
    && (!Misses(search, order, needle) ==>
          var k := |r.probes| - 1;
          && FirstHitAt(search, order, needle, k)
          && r.probes == ProbesOf(order[..k + 1], needle)
          && HitsFrom(pages, order[k], search(order[k], needle), r.hits))
  }

  /** Asking the first page, then `m` pages of the rest, asks the first
      `m + 1` pages. */
  lemma ProbesCons(order: seq<nat>, needle: string, m: nat)
    requires m < |order|
    ensures [Probe(order[0], needle)] + ProbesOf(order[1..][..m], needle) == ProbesOf(order[..m + 1], needle)
  {
    assert order[..m + 1][1..] == order[1..][..m];
  }

  /** A pass that finds nothing on the first page of `order` has the
      outcome of the pass over the rest, with that page asked first. */
  lemma ScanPastMiss(pages: seq<PageBox>, search: Oracle, order: seq<nat>, needle: string, rest: Search)
    requires forall k :: 0 <= k < |order| ==> order[k] < |pages|
    requires |order| > 0 && search(order[0], needle) == []
    requires PassOutcome(pages, search, order[1..], needle, rest)
    ensures PassOutcome(pages, search, order, needle, Search(rest.hits, [Probe(order[0], needle)] + rest.probes))
  {
    var r := Search(rest.hits, [Probe(order[0], needle)] + rest.probes);
    assert forall k :: 1 <= k < |order| ==> order[k] == order[1..][k - 1];
    if Misses(search, order[1..], needle) {
      assert Misses(search, order, needle);
      ProbesCons(order, needle, |order| - 1);
    } else {
      assert !Misses(search, order, needle);
      var k := |rest.probes| - 1;
      ProbesCons(order, needle, |rest.probes|);
      assert FirstHitAt(search, order, needle, k + 1);
    }
  }

  /** Ask the oracle page by page in `order`; stop at the first page with
      any hit. */
  function Scan(pages: seq<PageBox>, search: Oracle, order: seq<nat>, needle: string): (r: Search)
    requires forall k :: 0 <= k < |order| ==> order[k] < |pages|
    ensures PassOutcome(pages, search, order, needle, r)
  {
    if |order| == 0 then Search([], [])
    else
      var p := order[0];
      var rects := search(p, needle);
      if |rects| > 0 then
        var r := Search(HitsOn(pages, p, rects), [Probe(p, needle)]);
        assert order[..1] == [p];
        r
      else
        var rest := Scan(pages, search, order[1..], needle);
        ScanPastMiss(pages, search, order, needle, rest);
        Search(rest.hits, [Probe(p, needle)] + rest.probes)
  }

  // ---------------------------------------------------------------------
  // find_text_in_pdf

  /** `search_text[:50]`. */
  function RetryNeedle(s: string): string {
    s[..Min(RetryPrefixLength, |s|)]
  }

  /** The exact pass over `order` and, when it finds nothing and the needle
      is longer than 20 characters, the prefix pass. */
  function Passes(pages: seq<PageBox>, search: Oracle, order: seq<nat>, s: string): (r: Search)
    requires forall k :: 0 <= k < |order| ==> order[k] < |pages|
    ensures !Misses(search, order, s) || |s| <= RetryMinLength ==> PassOutcome(pages, search, order, s, r)
    ensures |s| > RetryMinLength && Misses(search, order, s) ==>
              && |order| <= |r.probes|
              && r.probes[..|order|] == ProbesOf(order, s)
              && PassOutcome(pages, search, order, RetryNeedle(s), Search(r.hits, r.probes[|order|..]))
  {
    var exact := Scan(pages, search, order, s);
    if |exact.hits| > 0 || |s| <= RetryMinLength then exact
    else
      var retry := Scan(pages, search, order, RetryNeedle(s));
      var r := Search(retry.hits, exact.probes + retry.probes);
      assert r.probes[|order|..] == retry.probes;
      assert Search(r.hits, r.probes[|order|..]) == retry;
      r
  }

  /** Locate `quote` in a document whose pages have the given sizes. The
      stripped quote is searched page by page in `SearchOrder`; if nothing
      is found and it is longer than 20 characters, its first 50 characters
      are searched the same way. */
  function Locate(pages: seq<PageBox>, search: Oracle, quote: string, hint: Option<int>): (r: Search)
    ensures var s := Strip(quote);
            var order := SearchOrder(|pages|, hint);
            && (|s| < MinQuoteLength ==> r.hits == [] && r.probes == [])
            && (|s| >= MinQuoteLength && (!Misses(search, order, s) || |s| <= RetryMinLength) ==>
                  PassOutcome(pages, search, order, s, r))
            && (|s| > RetryMinLength && Misses(search, order, s) ==>
                  && |order| <= |r.probes|
                  && r.probes[..|order|] == ProbesOf(order, s)
                  && PassOutcome(pages, search, order, RetryNeedle(s), Search(r.hits, r.probes[|order|..])))
  {
    var s := Strip(quote);
    if |s| < MinQuoteLength then Search([], [])
    else Passes(pages, search, SearchOrder(|pages|, hint), s)
  }

  // ---------------------------------------------------------------------
  // Properties of the policy

  /** The needle whose pass produced the result: the stripped quote, unless
      that was found nowhere, in which case the retry prefix. */
  ghost function UsedNeedle(pages: seq<PageBox>, search: Oracle, quote: string, hint: Option<int>): string
  {
    var s := Strip(quote);
    if Misses(search, SearchOrder(|pages|, hint), s) && |s| > RetryMinLength then RetryNeedle(s) else s
  }

  /** `hits` are the rectangles of the first page in `order` where the
      oracle answered for `needle`, numbered and sized as that page. */
  ghost predicate FirstPageHits(pages: seq<PageBox>, search: Oracle, order: seq<nat>, needle: string, hits: seq<Hit>)
    requires forall k :: 0 <= k < |order| ==> order[k] < |pages|
  {
    exists k :: && FirstHitAt(search, order, needle, k)
                && HitsFrom(pages, order[k], search(order[k], needle), hits)
                && forall i :: 0 <= i < |hits| ==> hits[i].page == order[k] + 1 <= |pages|
  }

  lemma ScanFirstPage(pages: seq<PageBox>, search: Oracle, order: seq<nat>, needle: string)
    requires forall k :: 0 <= k < |order| ==> order[k] < |pages|
    ensures var r := Scan(pages, search, order, needle);
            |r.hits| > 0 ==> FirstPageHits(pages, search, order, needle, r.hits)
  {
    var r := Scan(pages, search, order, needle);
    if |r.hits| > 0 {
      var k := |r.probes| - 1;
      assert FirstHitAt(search, order, needle, k);
    }
  }

  /** All rectangles of one call lie on one page: the first page in search
      order where the oracle answered for the needle used. Each carries that
      page's 1-based number and size, in the oracle's order. */
  lemma LocateSinglePage(pages: seq<PageBox>, search: Oracle, quote: string, hint: Option<int>)
    ensures var r := Locate(pages, search, quote, hint);
            |r.hits| > 0 ==>
              FirstPageHits(pages, search, SearchOrder(|pages|, hint), UsedNeedle(pages, search, quote, hint), r.hits)
  {
    var r := Locate(pages, search, quote, hint);
    var order := SearchOrder(|pages|, hint);
    var s := Strip(quote);
    if |s| >= MinQuoteLength {
      var exact := Scan(pages, search, order, s);
      if |exact.hits| > 0 || |s| <= RetryMinLength {
        assert r == exact;
        ScanFirstPage(pages, search, order, s);
        if |r.hits| > 0 {
          assert !Misses(search, order, s);
        }
      } else {
        var retry := Scan(pages, search, order, RetryNeedle(s));
        assert r.hits == retry.hits;
        assert Misses(search, order, s);
        ScanFirstPage(pages, search, order, RetryNeedle(s));
      }
    }
  }

  /** A quote of at least five characters that the oracle finds on some page
      is always located, by the exact pass and without any retry. */
  lemma LocateFindsPresentQuote(pages: seq<PageBox>, search: Oracle, quote: string, hint: Option<int>, p: nat)
    requires |Strip(quote)| >= MinQuoteLength
    requires p < |pages| && search(p, Strip(quote)) != []
    ensures var r := Locate(pages, search, quote, hint);
            && |r.hits| > 0
            && forall i :: 0 <= i < |r.probes| ==> r.probes[i].needle == Strip(quote)
  {
    var order := SearchOrder(|pages|, hint);
    assert p in order;
    var k :| 0 <= k < |order| && order[k] == p;
    assert !Misses(search, order, Strip(quote));
  }

  /** When the hint names a page where the quote is found, that page is the
      only one asked and every rectangle is on it. */
  lemma LocatePrefersHint(pages: seq<PageBox>, search: Oracle, quote: string, h: int)
    requires 1 <= h <= |pages|
    requires |Strip(quote)| >= MinQuoteLength
    requires search(h - 1, Strip(quote)) != []
    ensures var r := Locate(pages, search, quote, Some(h));
            && r.probes == [Probe(h - 1, Strip(quote))]
            && HitsFrom(pages, h - 1, search(h - 1, Strip(quote)), r.hits)
  {
    var order := SearchOrder(|pages|, Some(h));
    var s := Strip(quote);
    assert order[0] == h - 1;
    ScanFirstAnswers(pages, search, order, s);
    PassesFound(pages, search, order, s);
    assert Locate(pages, search, quote, Some(h)) == Passes(pages, search, order, s);
  }

  /** A pass whose first page answers asks nothing else. */
  lemma ScanFirstAnswers(pages: seq<PageBox>, search: Oracle, order: seq<nat>, needle: string)
    requires forall k :: 0 <= k < |order| ==> order[k] < |pages|
    requires |order| > 0 && search(order[0], needle) != []
    ensures Scan(pages, search, order, needle)
            == Search(HitsOn(pages, order[0], search(order[0], needle)), [Probe(order[0], needle)])
  {
  }

  /** An exact pass that finds something is the whole result. */
  lemma PassesFound(pages: seq<PageBox>, search: Oracle, order: seq<nat>, s: string)
    requires forall k :: 0 <= k < |order| ==> order[k] < |pages|
    requires |Scan(pages, search, order, s).hits| > 0
    ensures Passes(pages, search, order, s) == Scan(pages, search, order, s)
  {
  }

  /** Every probe of a pass asks for that pass's needle. */
  lemma ScanNeedles(pages: seq<PageBox>, search: Oracle, order: seq<nat>, needle: string)
    requires forall k :: 0 <= k < |order| ==> order[k] < |pages|
    ensures var r := Scan(pages, search, order, needle);
            && |r.probes| <= |order|
            && (forall i :: 0 <= i < |r.probes| ==> r.probes[i].needle == needle)
  {
    var r := Scan(pages, search, order, needle);
    if !Misses(search, order, needle) {
      assert r.probes == ProbesOf(order[..|r.probes|], needle);
    }
  }

  /** The needles of the probes of one call, with the retry pass's probes
      coming after all the exact pass's. */
  ghost predicate ProbeNeedles(probes: seq<Probe>, s: string, nPages: nat, retried: bool) {
    forall i :: 0 <= i < |probes| && probes[i].needle != s ==>
      retried && probes[i].needle == RetryNeedle(s) && i >= nPages
  }

  lemma RetryProbes(pages: seq<PageBox>, search: Oracle, order: seq<nat>, s: string)
    requires forall k :: 0 <= k < |order| ==> order[k] < |pages|
    requires |s| > RetryMinLength && Misses(search, order, s)
    ensures ProbeNeedles(Passes(pages, search, order, s).probes, s, |order|, true)
  {
    var r := Passes(pages, search, order, s);
    var exact := Scan(pages, search, order, s);
    var retry := Scan(pages, search, order, RetryNeedle(s));
    ScanNeedles(pages, search, order, RetryNeedle(s));
    assert r.probes == exact.probes + retry.probes;
    forall i | 0 <= i < |r.probes| && r.probes[i].needle != s
      ensures r.probes[i].needle == RetryNeedle(s) && i >= |order|
    {
      if i >= |order| {
        assert r.probes[i] == retry.probes[i - |order|];
      }
    }
  }

  lemma ExactProbes(pages: seq<PageBox>, search: Oracle, quote: string, hint: Option<int>)
    requires var s := Strip(quote);
             |s| <= RetryMinLength || !Misses(search, SearchOrder(|pages|, hint), s)
    ensures ProbeNeedles(Locate(pages, search, quote, hint).probes, Strip(quote), |pages|, false)
  {
    var s := Strip(quote);
    if |s| >= MinQuoteLength {
      var order := SearchOrder(|pages|, hint);
      var exact := Scan(pages, search, order, s);
      ScanNeedles(pages, search, order, s);
      if !Misses(search, order, s) {
        assert |exact.hits| > 0;
      }
      assert Locate(pages, search, quote, hint) == exact;
    }
  }

  /** The prefix retry happens only after the exact pass asked every page
      in vain, and only for quotes longer than 20 characters. */
  lemma LocateRetryOnlyAfterMiss(pages: seq<PageBox>, search: Oracle, quote: string, hint: Option<int>)
    ensures ProbeNeedles(Locate(pages, search, quote, hint).probes, Strip(quote), |pages|,
                         |Strip(quote)| > RetryMinLength && Misses(search, SearchOrder(|pages|, hint), Strip(quote)))
  {
    var s := Strip(quote);
    if |s| > RetryMinLength && Misses(search, SearchOrder(|pages|, hint), s) {
      RetryProbes(pages, search, SearchOrder(|pages|, hint), s);
    } else {
      ExactProbes(pages, search, quote, hint);
    }
  }

  /** A quote found by neither pass yields no rectangles. */
  lemma LocateNotFound(pages: seq<PageBox>, search: Oracle, quote: string, hint: Option<int>)
    requires var s := Strip(quote);
             var order := SearchOrder(|pages|, hint);
             Misses(search, order, s) && (|s| <= RetryMinLength || Misses(search, order, RetryNeedle(s)))
    ensures Locate(pages, search, quote, hint).hits == []
  {
  }
}

=== FILE: reply.dfy ===
/** What the backend makes of a reviewer model's reply (`call_llm_api`
    after the HTTP call, and the `result.get(...)` lookups in
    `analyze_paper`): the JSON text is cut out of a Markdown code fence,
    parsed by an oracle standing in for `json.loads`, and an unparseable
    reply falls back to a result whose summary is the raw text. */
module Reply {
  import opened Wrappers
  import opened Text

  /** A `"page"` entry of the reply: missing, JSON `null`, or a number. */
  datatype JsonPage = Absent | Null | Number(n: int)

  /** One `{"quote", "page"}` citation object; a missing quote is `None`. */
  datatype RawCitation = RawCitation(quote: Option<string>, page: JsonPage)

  /** One comment object of the reply; missing fields are `None` (or, for
      the citation list, empty). */
  datatype RawComment = RawComment(
    title: Option<string>,
    content: Option<string>,
    page: JsonPage,
    severity: Option<string>,
    citations: seq<RawCitation>)

  /** A parsed reply: its string-valued top-level fields and its
      `"comments"` list (empty when missing). */
  datatype LlmResult = LlmResult(fields: map<string, string>, comments: seq<RawComment>)

  /** `d.get("page", 1)`: a missing page reads as page 1, `null` as `None`. */
  function PageHint(p: JsonPage): (hint: Option<int>)
    ensures p.Absent? ==> hint == Some(1)
    ensures p.Null? ==> hint == None
    ensures p.Number? ==> hint == Some(p.n)
  {
    match p
    case Absent => Some(1)
    case Null => None
    case Number(n) => Some(n)
  }

  // ---------------------------------------------------------------------
  // Code-fence slicing

  const Fence: string := "```"
  const JsonFence: string := "```json"

  /** `seg` starts at `start` in `content`, holds no fence, and runs to the
      next fence or to the end of `content`. */
  ghost predicate FencedAt(content: string, start: nat, seg: string) {
    && start + |seg| <= |content|
    && content[start..start + |seg|] == seg
    && !Contains(seg, Fence)
    && (start + |seg| == |content| || OccursAt(content, Fence, start + |seg|))
  }

  /** `seg` is the text of `content` from `start` up to `stop`, cut where
      the first "```" lying wholly inside that window begins. */
  ghost predicate CutAtFence(content: string, start: nat, stop: nat, seg: string) {
    && start + |seg| <= stop <= |content|
    && content[start..start + |seg|] == seg
    && (forall k :: start <= k < start + |seg| && k + |Fence| <= stop ==> !OccursAt(content, Fence, k))
    && (start + |seg| == stop || (start + |seg| + |Fence| <= stop && OccursAt(content, Fence, start + |seg|)))
  }

  /** The cut is determined by the window: two pieces cut from the same
      window are the same piece. */
  lemma CutAtFenceUnique(content: string, start: nat, stop: nat, a: string, b: string)
    requires CutAtFence(content, start, stop, a) && CutAtFence(content, start, stop, b)
    ensures a == b
  {
    assert start + |b| <= start + |a| by {
      assert start + |a| == stop || OccursAt(content, Fence, start + |a|);
    }
    assert start + |a| <= start + |b| by {
      assert start + |b| == stop || OccursAt(content, Fence, start + |b|);
    }
  }

  /** The JSON text before stripping. With a "```json", the text after the
      first one runs to the next "```json" (or the end) and is cut at the
      first "```" inside it; otherwise, with a "```", it is the text from
      the first fence to the next; with no fence it is the whole reply. */
  function FencedBody(content: string): (seg: string)
    ensures Contains(content, JsonFence) ==>
              var start := Find(content, JsonFence).value + |JsonFence|;
              && FencedAt(content, start, seg)
              && exists stop :: RunsToNext(content, JsonFence, start, stop) && CutAtFence(content, start, stop, seg)
    ensures !Contains(content, JsonFence) && Contains(content, Fence) ==>
              var start := Find(content, Fence).value + |Fence|;
              FencedAt(content, start, seg) && RunsToNext(content, Fence, start, start + |seg|)
    ensures !Contains(content, Fence) ==> seg == content
  {
    if Contains(content, JsonFence) then
      JsonFenceBody(content);
      JsonFenceCut(content);
      JsonFenceIsFence(content, Find(content, JsonFence).value);
      Before(SplitSecond(content, JsonFence), Fence)
    else if Contains(content, Fence) then
      PlainFenceBody(content);
      Before(SplitSecond(content, Fence), Fence)
    else
      content
  }

  /** "```json" begins with "```". */
  lemma JsonFenceIsFence(s: string, i: int)
    requires OccursAt(s, JsonFence, i)
    ensures OccursAt(s, Fence, i)
  {
    assert s[i..i + |Fence|] == s[i..i + |JsonFence|][..|Fence|];
  }

  /** `split("```")[0]` of a piece of `content` is a piece of `content`. */
  lemma HeadOfPiece(content: string, start: nat, piece: string)
    requires start + |piece| <= |content| && piece == content[start..start + |piece|]
    ensures var seg := Before(piece, Fence);
            start + |seg| <= |content| && seg == content[start..start + |seg|]
  {
    var seg := Before(piece, Fence);
    assert piece[..|seg|] == content[start..start + |seg|];
  }

  /** A piece that runs to a "```json" or to the end, cut at its first
      "```", ends at a fence or at the end. */
  lemma HeadEndsAtFence(content: string, start: nat, piece: string)
    requires start + |piece| <= |content| && piece == content[start..start + |piece|]
    requires start + |piece| == |content| || OccursAt(content, JsonFence, start + |piece|)
    ensures var seg := Before(piece, Fence);
            start + |seg| == |content| || OccursAt(content, Fence, start + |seg|)
  {
    var seg := Before(piece, Fence);
    if seg == piece {
      if start + |seg| < |content| {
        JsonFenceIsFence(content, start + |seg|);
      }
    } else {
      assert OccursAt(content, piece, start);
      OccursWithin(content, piece, start, Fence, |seg|);
    }
  }

  /** A piece of `content` that runs to a "```json" or to the end, cut at
      its first "```", is a fenced body. */
  lemma FencedHead(content: string, start: nat, piece: string)
    requires start + |piece| <= |content| && piece == content[start..start + |piece|]
    requires start + |piece| == |content| || OccursAt(content, JsonFence, start + |piece|)
    ensures FencedAt(content, start, Before(piece, Fence))
  {
    HeadOfPiece(content, start, piece);
    HeadEndsAtFence(content, start, piece);
  }

  /** `split("```")[0]` of the piece of `content` at `start` is that piece
      cut at its first fence. */
  lemma CutPiece(content: string, start: nat, piece: string)
    requires start + |piece| <= |content| && piece == content[start..start + |piece|]
    ensures CutAtFence(content, start, start + |piece|, Before(piece, Fence))
  {
    var seg := Before(piece, Fence);
    HeadOfPiece(content, start, piece);
    assert OccursAt(content, piece, start);
    forall k | start <= k < start + |seg| && k + |Fence| <= start + |piece|
      ensures !OccursAt(content, Fence, k)
    {
      assert !OccursAt(piece, Fence, k - start);
      NotOccursWithin(content, piece, start, Fence, k);
    }
    if seg != piece {
      assert OccursAt(content, piece, start);
      OccursWithin(content, piece, start, Fence, |seg|);
    }
  }

  /** The "```json" branch's body starts right after the first "```json",
      holds no fence, and runs to a fence or to the end. */
  lemma JsonFenceBody(content: string)
    requires Contains(content, JsonFence)
    ensures FencedAt(content, Find(content, JsonFence).value + |JsonFence|,
                     Before(SplitSecond(content, JsonFence), Fence))
  {
    FencedHead(content, Find(content, JsonFence).value + |JsonFence|, SplitSecond(content, JsonFence));
  }

  /** The "```json" branch is cut exactly: the body runs from the first
      "```json" towards the next one (or the end) and stops at the first
      fence in between. */
  lemma JsonFenceCut(content: string)
    requires Contains(content, JsonFence)
    ensures var start := Find(content, JsonFence).value + |JsonFence|;
            var stop := start + |SplitSecond(content, JsonFence)|;
            && RunsToNext(content, JsonFence, start, stop)
            && CutAtFence(content, start, stop, Before(SplitSecond(content, JsonFence), Fence))
  {
    CutPiece(content, Find(content, JsonFence).value + |JsonFence|, SplitSecond(content, JsonFence));
  }

  /** With no "```json", the body is all of the text after the first
      "```" up to the next one. */
  lemma PlainFenceBody(content: string)
    requires Contains(content, Fence)
    ensures var start := Find(content, Fence).value + |Fence|;
            var seg := Before(SplitSecond(content, Fence), Fence);
            FencedAt(content, start, seg) && RunsToNext(content, Fence, start, start + |seg|)
  {
    var piece := SplitSecond(content, Fence);
    var seg := Before(piece, Fence);
    assert !OccursAt(piece, Fence, |seg|);
  }

  /** The text handed to `json.loads`: the fenced body, stripped. */
  function Payload(content: string): (r: string)
    ensures IsStripped(r)
    ensures !Contains(content, Fence) ==> r == Strip(content)
    ensures Contains(content, Fence) ==> !Contains(r, Fence)
    ensures Padded(FencedBody(content), r)
  {
    var seg := FencedBody(content);
    StripIsSlice(seg);
    var r := Strip(seg);
    assert Contains(content, Fence) ==> !Contains(r, Fence) by {
      if Contains(content, Fence) {
        var i :| PaddedAt(seg, r, i);
        NotContainsWithin(seg, r, i, Fence);
      }
    }
    r
  }

  /** A character other than a backtick cannot lie inside a fence. */
  lemma NoFenceAcross(s: string, j: int, k: int)
    requires 0 <= j < |s| && s[j] != '`'
    requires k <= j < k + |Fence|
    ensures !OccursAt(s, Fence, k)
  {
  }

  /** Framing a fence-free text in newlines creates no fence. */
  lemma WrappedNoFence(p: string)
    requires !Contains(p, Fence)
    ensures !Contains("\n" + p + "\n", Fence)
  {
    var w := "\n" + p + "\n";
    forall k | 0 <= k <= |w| && OccursAt(w, Fence, k) ensures false {
      if k == 0 {
        NoFenceAcross(w, 0, k);
      } else if k + |Fence| == |w| {
        NoFenceAcross(w, |w| - 1, k);
      } else {
        assert p[k - 1..k - 1 + |Fence|] == w[k..k + |Fence|];
        assert OccursAt(p, Fence, k - 1);
      }
    }
  }

  /** Stripping a stripped text framed in newlines gives the text back. */
  lemma StripWrapped(p: string)
    requires IsStripped(p)
    ensures Strip("\n" + p + "\n") == p
  {
    var w := "\n" + p + "\n";
    if |p| == 0 {
      assert LeadFrom(w, 0) == LeadFrom(w, 1) == 2;
    } else {
      assert w[1] == p[0] && w[|w| - 2] == p[|p| - 1];
      assert LeadFrom(w, 0) == LeadFrom(w, 1) == 1;
      assert TrailFrom(w, |w|) == TrailFrom(w, |w| - 1) == |w| - 1;
      assert w[1..|w| - 1] == p;
    }
  }

  /** After the opening "```json" of a well-formed block there is no other
      "```json", so the block's tail is the second piece of the split. */
  lemma JsonBlockSecondPiece(p: string)
    requires !Contains(p, Fence)
    ensures var content := JsonFence + "\n" + p + "\n" + Fence;
            Contains(content, JsonFence) && SplitSecond(content, JsonFence) == "\n" + p + "\n" + Fence
  {
    var w := "\n" + p + "\n";
    var content := JsonFence + "\n" + p + "\n" + Fence;
    assert content == JsonFence + w + Fence;
    assert OccursAt(content, JsonFence, 0);
    assert Find(content, JsonFence) == Some(0);
    WrappedNoFence(p);
    var tail := w + Fence;
    assert content[|JsonFence|..] == tail;
    assert !Contains(tail, JsonFence) by {
      forall k | 0 <= k <= |tail| && OccursAt(tail, JsonFence, k) ensures false {
        JsonFenceIsFence(tail, k);
        assert tail[k..k + |Fence|] == w[k..k + |Fence|];
        assert OccursAt(w, Fence, k);
      }
    }
  }

  /** In a framed fence-free text followed by "```", the first "```" is
      that closing one. */
  lemma ClosingFenceFirst(p: string)
    requires !Contains(p, Fence)
    ensures Before("\n" + p + "\n" + Fence, Fence) == "\n" + p + "\n"
  {
    var w := "\n" + p + "\n";
    var tail := w + Fence;
    assert tail == "\n" + p + "\n" + Fence;
    WrappedNoFence(p);
    assert OccursAt(tail, Fence, |w|);
    forall k | 0 <= k < |w| ensures !OccursAt(tail, Fence, k) {
      if k + |Fence| <= |w| {
        assert !OccursAt(w, Fence, k);
        assert tail[k..k + |Fence|] == w[k..k + |Fence|];
      } else {
        NoFenceAcross(tail, |w| - 1, k);
      }
    }
    assert Find(tail, Fence) == Some(|w|);
  }

  /** A reply that wraps a stripped, fence-free JSON text in a "```json"
      code block yields exactly that text as the payload. */
  lemma JsonFenceRoundTrip(p: string)
    requires IsStripped(p) && !Contains(p, Fence)
    ensures Payload(JsonFence + "\n" + p + "\n" + Fence) == p
  {
    var content := JsonFence + "\n" + p + "\n" + Fence;
    JsonBlockSecondPiece(p);
    ClosingFenceFirst(p);
    assert FencedBody(content) == "\n" + p + "\n";
    StripWrapped(p);
  }

  /** A reply that is already a stripped, fence-free text is its own payload. */
  lemma UnfencedRoundTrip(p: string)
    requires IsStripped(p) && !Contains(p, Fence)
    ensures Payload(p) == p
  {
    StripOfStripped(p);
  }

  // ---------------------------------------------------------------------
  // Decoding and the summary fallback chain

  /** `json.loads` on the payload; `None` stands for `JSONDecodeError`. */
  type JsonParser = string -> Option<LlmResult>

  /** The reply content as a result: the parsed payload, or, when it does
      not parse, a result whose only field is `summary` = the raw reply. */
  function Decode(content: string, parse: JsonParser): (r: LlmResult)
    ensures parse(Payload(content)).Some? ==> r == parse(Payload(content)).value
    ensures parse(Payload(content)).None? ==> r.comments == [] && r.fields == map["summary" := content]
  {
    match parse(Payload(content))
    case Some(result) => result
    case None => LlmResult(map["summary" := content], [])
  }

  /** The keys tried, in order, for a reviewer's summary. */
  const SummaryKeys: seq<string> := [
    "summary", "assessment", "methodology_assessment",
    "novelty_assessment", "clarity_assessment", "reproducibility_assessment"
  ]

  function FirstPresent(keys: seq<string>, fields: map<string, string>): (r: string)
    ensures (exists k :: 0 <= k < |keys| && keys[k] in fields && r == fields[keys[k]]
                         && forall j :: 0 <= j < k ==> keys[j] !in fields)
            || (r == "" && forall k :: 0 <= k < |keys| ==> keys[k] !in fields)
  {
    if |keys| == 0 then ""
    else if keys[0] in fields then
      assert 0 < |keys| && keys[0] in fields;
      fields[keys[0]]
    else
      var r := FirstPresent(keys[1..], fields);
      assert forall k :: 1 <= k < |keys| ==> keys[k] == keys[1..][k - 1];
      assert (exists k :: 0 <= k < |keys[1..]| && keys[1..][k] in fields && r == fields[keys[1..][k]]
                          && forall j :: 0 <= j < k ==> keys[1..][j] !in fields)
             ==> (exists k :: 0 <= k < |keys| && keys[k] in fields && r == fields[keys[k]]
                          && forall j :: 0 <= j < k ==> keys[j] !in fields) by {
        if exists k :: 0 <= k < |keys[1..]| && keys[1..][k] in fields && r == fields[keys[1..][k]]
                       && forall j :: 0 <= j < k ==> keys[1..][j] !in fields {
          var k :| 0 <= k < |keys[1..]| && keys[1..][k] in fields && r == fields[keys[1..][k]]
                   && forall j :: 0 <= j < k ==> keys[1..][j] !in fields;
          assert keys[k + 1] in fields && r == fields[keys[k + 1]];
          assert forall j :: 0 <= j < k + 1 ==> keys[j] !in fields by {
            forall j | 0 <= j < k + 1 ensures keys[j] !in fields {
              if j > 0 { assert keys[j] == keys[1..][j - 1]; }
            }
          }
        }
      }
      r
  }

  /** A completed reviewer's summary: the value of the first key of
      `SummaryKeys` the result has, else `""`. */
  function SummaryOf(result: LlmResult): (r: string)
    ensures (exists k :: 0 <= k < |SummaryKeys| && SummaryKeys[k] in result.fields
                         && r == result.fields[SummaryKeys[k]]
                         && forall j :: 0 <= j < k ==> SummaryKeys[j] !in result.fields)
            || (r == "" && forall k :: 0 <= k < |SummaryKeys| ==> SummaryKeys[k] !in result.fields)
  {
    FirstPresent(SummaryKeys, result.fields)
  }

  /** A reply that does not parse still yields a result: no comments, and
      the raw reply as its summary. */
  lemma UnparsedReplySummary(content: string, parse: JsonParser)
    requires parse(Payload(content)).None?
    ensures SummaryOf(Decode(content, parse)) == content
    ensures Decode(content, parse).comments == []
  {
    var r := Decode(content, parse);
    assert SummaryKeys[0] in r.fields;
  }
}

=== FILE: review.dfy ===
/** The `analyze_paper` loop: a left fold over the requested reviewer types
    that consumes one language-model outcome per known reviewer, resolves
    every citation of every returned comment with the locator, numbers the
    highlights from one counter, and records one reviewer entry per known
    type. The model call is an outcome per request position; the citation
    search is the locator over a fixed document. */
module Review {
  import opened Wrappers
  import opened Text
  import Locator
  import opened Reply

  /** The display part of a reviewer configuration. */
  datatype Persona = Persona(name: string, icon: string)

  /** The configured reviewers (`REVIEWERS`), by type. */
  const Registry: map<string, Persona> := map[
    "editor_overview" := Persona("Editor Overview", "\U{1F4DD}"),
    "methodology_reviewer" := Persona("Methodology Reviewer", "\U{1F52C}"),
    "novelty_reviewer" := Persona("Novelty Reviewer", "\U{1F4A1}"),
    "clarity_reviewer" := Persona("Clarity & Writing Reviewer", "\U{270D}\U{FE0F}"),
    "reproducibility_reviewer" := Persona("Reproducibility Reviewer", "\U{1F504}")
  ]

  /** `list(REVIEWERS.keys())`: the types run when none are requested. */
  const RegistryOrder: seq<string> := [
    "editor_overview", "methodology_reviewer", "novelty_reviewer",
    "clarity_reviewer", "reproducibility_reviewer"
  ]

  /** The document the citations are searched in: its page sizes and the
      PDF library's search. */
  datatype Paper = Paper(pages: seq<Locator.PageBox>, search: Locator.Oracle)

  /** What one reviewer's model call came back with. */
  datatype LlmOutcome = Ok(result: LlmResult) | Err(message: string)

  datatype Status = Completed | Error

  datatype Highlight = Highlight(
    id: string,
    rect: Locator.Rect,
    page: nat,
    width: real,
    height: real,
    commentId: string,
    quote: string)

  datatype Citation = Citation(quote: string, page: Option<int>, highlightId: Option<string>)

  datatype Comment = Comment(
    id: string,
    reviewerType: string,
    title: string,
    content: string,
    page: Option<int>,
    severity: string,
    citations: seq<Citation>,
    highlightRects: seq<Highlight>)

  datatype ReviewerRecord = ReviewerRecord(
    reviewerType: string,
    name: string,
    icon: string,
    summary: string,
    status: Status)

  /** The fold's state: the three result lists and the highlight counter. */
  datatype Analysis = Analysis(
    reviewers: seq<ReviewerRecord>,
    comments: seq<Comment>,
    highlights: seq<Highlight>,
    counter: nat)

  /** A highlight keeps at most this many characters of its quote. */
  const QuoteKept: nat := 100

  /** `quote[:100]`: the part of a quote its highlights keep. */
  function Clipped(quote: string): string {
    quote[..Min(QuoteKept, |quote|)]
  }

  function HighlightId(k: nat): string {
    "highlight_" + NatToString(k)
  }

  function CommentId(reviewerType: string, i: nat): string {
    reviewerType + "_" + NatToString(i)
  }

  // ---------------------------------------------------------------------
  // Identifiers

  /** The number is recovered from a highlight id. */
  lemma HighlightIdRoundTrip(k: nat)
    ensures |HighlightId(k)| > 10 && ParseDigits(HighlightId(k)[10..]) == k
  {
    assert HighlightId(k)[10..] == NatToString(k);
    ParseNatToString(k);
  }

  /** Distinct counters give distinct highlight ids. */
  lemma HighlightIdsDiffer(a: nat, b: nat)
    requires a != b
    ensures HighlightId(a) != HighlightId(b)
  {
    HighlightIdRoundTrip(a);
    HighlightIdRoundTrip(b);
  }

  /** The part of `s` after its last `c`, or all of `s` when it has none. */
  function AfterLast(s: string, c: char): string
  {
    if |s| == 0 || s[|s| - 1] == c then "" else AfterLast(s[..|s| - 1], c) + [s[|s| - 1]]
  }

  /** The part of `s` before its last `c`, or "" when it has none. */
  function BeforeLast(s: string, c: char): string
  {
    if |s| == 0 then ""
    else if s[|s| - 1] == c then s[..|s| - 1]
    else BeforeLast(s[..|s| - 1], c)
  }

  lemma {:induction false} LastSeparator(a: string, b: string, c: char)
    requires c !in b
    ensures AfterLast(a + [c] + b, c) == b
    ensures BeforeLast(a + [c] + b, c) == a
  {
    var s := a + [c] + b;
    if |b| > 0 {
      var n := |b| - 1;
      assert s[..|s| - 1] == a + [c] + b[..n];
      LastSeparator(a, b[..n], c);
      assert b == b[..n] + [b[n]];
    } else {
      assert s[..|s| - 1] == a;
    }
  }

  /** The reviewer type and the position are recovered from a comment id:
      the type is everything before the last `_`, the position the digits
      after it. */
  lemma CommentIdRoundTrip(reviewerType: string, i: nat)
    ensures BeforeLast(CommentId(reviewerType, i), '_') == reviewerType
    ensures AfterLast(CommentId(reviewerType, i), '_') == NatToString(i)
  {
    var d := NatToString(i);
    assert forall k :: 0 <= k < |d| ==> d[k] != '_';
    assert CommentId(reviewerType, i) == reviewerType + ['_'] + d;
    LastSeparator(reviewerType, d, '_');
  }

  /** Different types or positions give different comment ids. */
  lemma CommentIdsDiffer(t1: string, i1: nat, t2: string, i2: nat)
    requires t1 != t2 || i1 != i2
    ensures CommentId(t1, i1) != CommentId(t2, i2)
  {
    CommentIdRoundTrip(t1, i1);
    CommentIdRoundTrip(t2, i2);
    ParseNatToString(i1);
    ParseNatToString(i2);
  }

  // ---------------------------------------------------------------------
  // Invariants of one comment

  /** Highlights `hs` carry the ids `highlight_<from>`, `highlight_<from+1>`, ... */
  ghost predicate NumberedFrom(hs: seq<Highlight>, from: nat) {
    forall j :: 0 <= j < |hs| ==> hs[j].id == HighlightId(from + j)
  }

  /** A highlight made for a citation quoting `quote`. */
  ghost predicate MadeFor(h: Highlight, id: string, page: Option<int>, quote: string) {
    h.id == id && page == Some(h.page) && h.quote == Clipped(quote)
  }

  /** A citation with a highlight id names one of `rects`, made for its own
      quote, and takes its page. */
  ghost predicate Anchored(c: Citation, rects: seq<Highlight>) {
    c.highlightId.Some? ==>
      exists j :: 0 <= j < |rects| && MadeFor(rects[j], c.highlightId.value, c.page, c.quote)
  }

  /** A comment's highlights point back at it, and each of its citations has
      a non-empty quote and is anchored in the comment's own highlights. */
  ghost predicate CommentConsistent(c: Comment) {
    && (forall m :: 0 <= m < |c.highlightRects| ==> c.highlightRects[m].commentId == c.id)
    && (forall m :: 0 <= m < |c.citations| ==> c.citations[m].quote != "")
    && (forall m :: 0 <= m < |c.citations| ==> Anchored(c.citations[m], c.highlightRects))
  }

  lemma NumberedAppend(a: seq<Highlight>, b: seq<Highlight>, from: nat)
    requires NumberedFrom(a, from) && NumberedFrom(b, from + |a|)
    ensures NumberedFrom(a + b, from)
  {
    forall j | 0 <= j < |a + b| ensures (a + b)[j].id == HighlightId(from + j) {
      if j >= |a| { assert (a + b)[j] == b[j - |a|]; }
    }
  }

  lemma AnchoredAfter(c: Citation, pre: seq<Highlight>, rects: seq<Highlight>)
    requires Anchored(c, rects)
    ensures Anchored(c, pre + rects)
  {
    if c.highlightId.Some? {
      var j :| 0 <= j < |rects| && MadeFor(rects[j], c.highlightId.value, c.page, c.quote);
      assert (pre + rects)[|pre| + j] == rects[j];
    }
  }

  lemma AnchoredBefore(c: Citation, rects: seq<Highlight>, post: seq<Highlight>)
    requires Anchored(c, rects)
    ensures Anchored(c, rects + post)
  {
    if c.highlightId.Some? {
      var j :| 0 <= j < |rects| && MadeFor(rects[j], c.highlightId.value, c.page, c.quote);
      assert (rects + post)[j] == rects[j];
    }
  }

  // ---------------------------------------------------------------------
  // Citations

  /** `citation.get("quote", "")`. */
  function QuoteOf(raw: RawCitation): string {
    raw.quote.GetOr("")
  }

  /** The citations that are resolved: those with a non-empty quote, in order. */
  function KeptRaws(raws: seq<RawCitation>): seq<RawCitation>
  {
    if |raws| == 0 then []
    else (if QuoteOf(raws[0]) == "" then [] else [raws[0]]) + KeptRaws(raws[1..])
  }

  /** What `find_text_in_pdf` returns for a citation: the rectangles found
      for its quote, starting from its page hint. */
  function Located(paper: Paper, raw: RawCitation): seq<Locator.Hit> {
    Locator.Locate(paper.pages, paper.search, QuoteOf(raw), PageHint(raw.page)).hits
  }

  /** A search: the rectangles found for one citation. */
  type Finder = RawCitation -> seq<Locator.Hit>

  /** The search for every citation of `paper`. */
  function FinderOf(paper: Paper): Finder {
    raw => Located(paper, raw)
  }

  /** Everything `find` finds for the citations with a non-empty quote, in
      order. The facts about it below hold for any search. */
  function AllFound(find: Finder, raws: seq<RawCitation>): seq<Locator.Hit>
  {
    if |raws| == 0 then []
    else (if QuoteOf(raws[0]) == "" then [] else find(raws[0])) + AllFound(find, raws[1..])
  }

  /** Everything found for the citations with a non-empty quote, in order. */
  function AllLocated(paper: Paper, raws: seq<RawCitation>): seq<Locator.Hit> {
    AllFound(FinderOf(paper), raws)
  }

  /** The rectangles highlights were made from. */
  function HitsOf(hs: seq<Highlight>): seq<Locator.Hit>
  {
    seq(|hs|, j requires 0 <= j < |hs| => Locator.Hit(hs[j].rect, hs[j].page, hs[j].width, hs[j].height))
  }

  lemma HitsOfAppend(a: seq<Highlight>, b: seq<Highlight>)
    ensures HitsOf(a + b) == HitsOf(a) + HitsOf(b)
  {
    assert forall j :: 0 <= j < |a| + |b| ==> HitsOf(a + b)[j] == (HitsOf(a) + HitsOf(b))[j];
  }

  /** The quotes highlights keep. */
  function StoredQuotes(hs: seq<Highlight>): seq<string>
  {
    seq(|hs|, j requires 0 <= j < |hs| => hs[j].quote)
  }

  lemma StoredQuotesAppend(a: seq<Highlight>, b: seq<Highlight>)
    ensures StoredQuotes(a + b) == StoredQuotes(a) + StoredQuotes(b)
  {
    assert forall j :: 0 <= j < |a| + |b| ==> StoredQuotes(a + b)[j] == (StoredQuotes(a) + StoredQuotes(b))[j];
  }

  /** `quote`, `n` times. */
  function Repeat(quote: string, n: nat): seq<string>
  {
    seq(n, j => quote)
  }

  /** The quote kept by each highlight made for the citations with a
      non-empty quote, in order: a citation's clipped quote once for every
      rectangle `find` finds for it. */
  function QuotesFound(find: Finder, raws: seq<RawCitation>): seq<string>
  {
    if |raws| == 0 then []
    else (if QuoteOf(raws[0]) == "" then [] else Repeat(Clipped(QuoteOf(raws[0])), |find(raws[0])|))
         + QuotesFound(find, raws[1..])
  }

  /** The citation resolved from `raw` when `find` is the search: it keeps
      the quote; when something was found it names a highlight and takes
      the first rectangle's page, otherwise it names none and keeps the
      page hint. */
  ghost predicate CitedBy(find: Finder, c: Citation, raw: RawCitation) {
    var hits := find(raw);
    && c.quote == QuoteOf(raw)
    && (c.highlightId.Some? <==> |hits| > 0)
    && c.page == (if |hits| > 0 then Some(hits[0].page) else PageHint(raw.page))
  }

  /** The citation resolved from `raw` by the locator on `paper`. */
  ghost predicate CitedAs(paper: Paper, c: Citation, raw: RawCitation) {
    CitedBy(FinderOf(paper), c, raw)
  }

  lemma KeptQuotesNonEmpty(raws: seq<RawCitation>)
    ensures forall m :: 0 <= m < |KeptRaws(raws)| ==> QuoteOf(KeptRaws(raws)[m]) != ""
  {
  }

  lemma {:induction false} AllFoundAppend(find: Finder, a: seq<RawCitation>, b: seq<RawCitation>)
    ensures AllFound(find, a + b) == AllFound(find, a) + AllFound(find, b)
  {
    if |a| > 0 {
      assert (a + b)[1..] == a[1..] + b && (a + b)[0] == a[0];
      AllFoundAppend(find, a[1..], b);
    } else {
      assert a + b == b;
    }
  }

  /** Dropping the citations with empty quotes changes nothing found. */
  lemma {:induction false} AllFoundKept(find: Finder, raws: seq<RawCitation>)
    ensures AllFound(find, KeptRaws(raws)) == AllFound(find, raws)
  {
    if |raws| > 0 {
      AllFoundKept(find, raws[1..]);
      if QuoteOf(raws[0]) != "" {
        var kept := [raws[0]] + KeptRaws(raws[1..]);
        assert kept[1..] == KeptRaws(raws[1..]) && kept[0] == raws[0];
      } else {
        assert KeptRaws(raws) == KeptRaws(raws[1..]);
      }
    }
  }

  /** Where each kept citation's rectangles begin among everything found:
      after the rectangles found for the kept citations before it. */
  function StartsOf(find: Finder, kept: seq<RawCitation>): seq<nat>
  {
    seq(|kept|, m requires 0 <= m < |kept| => |AllFound(find, kept[..m])|)
  }

  /** What is found for kept citations around kept citation `m`. */
  lemma AllFoundAround(find: Finder, kept: seq<RawCitation>, m: nat)
    requires m < |kept| && QuoteOf(kept[m]) != ""
    ensures AllFound(find, kept) == AllFound(find, kept[..m]) + (find(kept[m]) + AllFound(find, kept[m + 1..]))
  {
    var tail := [kept[m]] + kept[m + 1..];
    assert tail[1..] == kept[m + 1..] && tail[0] == kept[m];
    assert kept == kept[..m] + tail;
    AllFoundAppend(find, kept[..m], tail);
  }

  /** The rectangles found for kept citation `m` sit, in order, at its
      start among everything found for the citations. */
  lemma StartsAreOwn(find: Finder, raws: seq<RawCitation>, m: nat)
    requires m < |KeptRaws(raws)|
    ensures StartsOf(find, KeptRaws(raws))[m] + |find(KeptRaws(raws)[m])| <= |AllFound(find, raws)|
    ensures AllFound(find, raws)[StartsOf(find, KeptRaws(raws))[m]..StartsOf(find, KeptRaws(raws))[m] + |find(KeptRaws(raws)[m])|]
              == find(KeptRaws(raws)[m])
  {
    var kept := KeptRaws(raws);
    var pre, own, post := AllFound(find, kept[..m]), find(kept[m]), AllFound(find, kept[m + 1..]);
    KeptQuotesNonEmpty(raws);
    AllFoundAround(find, kept, m);
    AllFoundKept(find, raws);
    Middle(pre, own, post);
  }

  /** The middle part of a three-part sequence sits where the first part ends. */
  lemma Middle<T>(pre: seq<T>, own: seq<T>, post: seq<T>)
    ensures (pre + (own + post))[|pre|..|pre| + |own|] == own
  {
  }

  /** The first kept citation starts at 0, the others after its rectangles. */
  lemma StartsOfStep(find: Finder, raw: RawCitation, ks: seq<RawCitation>)
    requires QuoteOf(raw) != ""
    ensures StartsOf(find, [raw] + ks) == [0] + Shift(StartsOf(find, ks), |find(raw)|)
  {
    var all := [raw] + ks;
    forall m | 1 <= m < |all|
      ensures |AllFound(find, all[..m])| == |find(raw)| + |AllFound(find, ks[..m - 1])|
    {
      assert all[..m][1..] == ks[..m - 1] && all[..m][0] == raw;
    }
  }

  /** Where each kept citation's highlights begin among its comment's
      highlights. */
  ghost function Starts(paper: Paper, kept: seq<RawCitation>): seq<nat> {
    StartsOf(FinderOf(paper), kept)
  }

  function Shift(s: seq<nat>, n: nat): seq<nat> {
    seq(|s|, i requires 0 <= i < |s| => s[i] + n)
  }

  /** Each citation of `cs` that names a highlight names `hs[starts[m]]`. */
  ghost predicate NamesFirst(cs: seq<Citation>, hs: seq<Highlight>, starts: seq<nat>) {
    && |starts| == |cs|
    && forall m :: 0 <= m < |cs| && cs[m].highlightId.Some? ==>
         starts[m] < |hs| && cs[m].highlightId == Some(hs[starts[m]].id)
  }

  /** One citation naming the first of its highlights, followed by
      citations naming theirs, names the first of each in the joined
      highlights. */
  lemma JoinNamesFirst(c: Citation, one: seq<Highlight>, rest: seq<Citation>, hs: seq<Highlight>, s: seq<nat>)
    requires c.highlightId.Some? ==> |one| > 0 && c.highlightId == Some(one[0].id)
    requires NamesFirst(rest, hs, s)
    ensures NamesFirst([c] + rest, one + hs, [0] + Shift(s, |one|))
  {
    var cs := [c] + rest;
    var st := [0] + Shift(s, |one|);
    forall m | 1 <= m < |cs| && cs[m].highlightId.Some?
      ensures st[m] < |one + hs| && cs[m].highlightId == Some((one + hs)[st[m]].id)
    {
      assert cs[m] == rest[m - 1] && st[m] == s[m - 1] + |one|;
      assert (one + hs)[s[m - 1] + |one|] == hs[s[m - 1]];
    }
  }

  datatype Resolved = Resolved(citations: seq<Citation>, highlights: seq<Highlight>)

  /** The located rectangles as highlights numbered from `counter`, each
      tied to `commentId` and keeping the first 100 characters of the quote. */
  function Tag(hits: seq<Locator.Hit>, counter: nat, commentId: string, quote: string): (hs: seq<Highlight>)
    ensures |hs| == |hits|
    ensures NumberedFrom(hs, counter)
    ensures forall j :: 0 <= j < |hs| ==>
              && hs[j].commentId == commentId
              && hs[j].rect == hits[j].rect && hs[j].page == hits[j].page
              && hs[j].width == hits[j].width && hs[j].height == hits[j].height
              && hs[j].quote == Clipped(quote)
  {
    seq(|hits|, j requires 0 <= j < |hits| =>
      Highlight(HighlightId(counter + j), hits[j].rect, hits[j].page, hits[j].width, hits[j].height,
                commentId, Clipped(quote)))
  }

  /** One citation with a non-empty quote: every rectangle the locator
      finds becomes a highlight; the citation points at the first of them
      and takes its page, or keeps the hint when nothing was found. */
  function ResolveCitation(paper: Paper, commentId: string, raw: RawCitation, counter: nat): (r: Resolved)
    requires QuoteOf(raw) != ""
    ensures var hits := Locator.Locate(paper.pages, paper.search, QuoteOf(raw), PageHint(raw.page)).hits;
            && |r.citations| == 1
            && r.citations[0].quote == QuoteOf(raw)
            && r.highlights == Tag(hits, counter, commentId, QuoteOf(raw))
            && (|hits| > 0 ==> r.citations[0].highlightId == Some(HighlightId(counter))
                               && r.citations[0].page == Some(hits[0].page))
            && (|hits| == 0 ==> r.citations[0].highlightId == None
                                && r.citations[0].page == PageHint(raw.page))
    ensures NumberedFrom(r.highlights, counter)
    ensures forall j :: 0 <= j < |r.highlights| ==> r.highlights[j].commentId == commentId
    ensures Anchored(r.citations[0], r.highlights)
    ensures CitedAs(paper, r.citations[0], raw) && HitsOf(r.highlights) == Located(paper, raw)
    ensures NamesFirst(r.citations, r.highlights, [0])
  {
    Cite(Located(paper, raw), QuoteOf(raw), PageHint(raw.page), commentId, counter)
  }

  /** The citation of `quote` and its highlights, made from the rectangles
      `hits` found for it. */
  function Cite(hits: seq<Locator.Hit>, quote: string, hint: Option<int>, commentId: string, counter: nat): (r: Resolved)
    ensures |r.citations| == 1 && r.citations[0].quote == quote
    ensures r.highlights == Tag(hits, counter, commentId, quote) && HitsOf(r.highlights) == hits
    ensures StoredQuotes(r.highlights) == Repeat(Clipped(quote), |hits|)
    ensures |hits| > 0 ==> r.citations[0].highlightId == Some(HighlightId(counter))
                           && r.citations[0].page == Some(hits[0].page)
    ensures |hits| == 0 ==> r.citations[0].highlightId == None && r.citations[0].page == hint
    ensures NumberedFrom(r.highlights, counter)
    ensures forall j :: 0 <= j < |r.highlights| ==> r.highlights[j].commentId == commentId
    ensures Anchored(r.citations[0], r.highlights)
    ensures NamesFirst(r.citations, r.highlights, [0])
  {
    var hs := Tag(hits, counter, commentId, quote);
    var c := Citation(quote,
                      if |hits| > 0 then Some(hits[0].page) else hint,
                      if |hits| > 0 then Some(hs[0].id) else None);
    assert |hits| > 0 ==> MadeFor(hs[0], hs[0].id, c.page, quote);
    assert HitsOf(hs) == hits;
    assert StoredQuotes(hs) == Repeat(Clipped(quote), |hits|);
    assert c.highlightId.Some? ==> |hs| > 0 && c.highlightId == Some(hs[0].id);
    Resolved([c], hs)
  }

  /** A single resolved citation followed by the rest keeps the rest's
      guarantees: consecutive numbering, one owner, anchored citations. */
  lemma JoinResolved(one: Resolved, rest: Resolved, counter: nat, commentId: string)
    requires |one.citations| == 1 && one.citations[0].quote != ""
    requires NumberedFrom(one.highlights, counter)
    requires forall j :: 0 <= j < |one.highlights| ==> one.highlights[j].commentId == commentId
    requires Anchored(one.citations[0], one.highlights)
    requires NumberedFrom(rest.highlights, counter + |one.highlights|)
    requires forall j :: 0 <= j < |rest.highlights| ==> rest.highlights[j].commentId == commentId
    requires forall m :: 0 <= m < |rest.citations| ==> rest.citations[m].quote != ""
    requires forall m :: 0 <= m < |rest.citations| ==> Anchored(rest.citations[m], rest.highlights)
    ensures var r := Resolved(one.citations + rest.citations, one.highlights + rest.highlights);
            && NumberedFrom(r.highlights, counter)
            && (forall j :: 0 <= j < |r.highlights| ==> r.highlights[j].commentId == commentId)
            && (forall m :: 0 <= m < |r.citations| ==> r.citations[m].quote != "")
            && (forall m :: 0 <= m < |r.citations| ==> Anchored(r.citations[m], r.highlights))
  {
    var r := Resolved(one.citations + rest.citations, one.highlights + rest.highlights);
    NumberedAppend(one.highlights, rest.highlights, counter);
    AnchoredBefore(one.citations[0], one.highlights, rest.highlights);
    forall m | 1 <= m < |r.citations| ensures Anchored(r.citations[m], r.highlights) {
      assert r.citations[m] == rest.citations[m - 1];
      AnchoredAfter(rest.citations[m - 1], one.highlights, rest.highlights);
    }
  }

  /** A relation that holds pointwise between `xs` and the tail of `ys`,
      and between `x` and the head of `ys`, holds pointwise between
      `[x] + xs` and `ys`. */
  lemma Prepend<A, B>(rel: (A, B) -> bool, x: A, xs: seq<A>, ys: seq<B>)
    requires |ys| == |xs| + 1 && rel(x, ys[0])
    requires forall k :: 0 <= k < |xs| ==> rel(xs[k], ys[1..][k])
    ensures forall k :: 0 <= k < |ys| ==> rel(([x] + xs)[k], ys[k])
  {
    forall k | 1 <= k < |ys| ensures rel(([x] + xs)[k], ys[k]) {
      assert ([x] + xs)[k] == xs[k - 1] && ys[1..][k - 1] == ys[k];
    }
  }

  /** The first kept citation resolved from its own search, followed by
      the later ones resolved from theirs, gives every kept citation
      resolved from its own search, naming the first of its highlights. */
  lemma JoinFound(find: Finder, raw: RawCitation, ks: seq<RawCitation>, one: Resolved, rest: Resolved)
    requires QuoteOf(raw) != ""
    requires |one.citations| == 1 && CitedBy(find, one.citations[0], raw)
    requires HitsOf(one.highlights) == find(raw)
    requires NamesFirst(one.citations, one.highlights, [0])
    requires |rest.citations| == |ks|
    requires forall m :: 0 <= m < |rest.citations| ==> CitedBy(find, rest.citations[m], ks[m])
    requires NamesFirst(rest.citations, rest.highlights, StartsOf(find, ks))
    ensures HitsOf(one.highlights + rest.highlights) == find(raw) + HitsOf(rest.highlights)
    ensures forall m :: 0 <= m < |one.citations + rest.citations| ==>
              CitedBy(find, (one.citations + rest.citations)[m], ([raw] + ks)[m])
    ensures NamesFirst(one.citations + rest.citations, one.highlights + rest.highlights, StartsOf(find, [raw] + ks))
  {
    var kept := [raw] + ks;
    assert kept[1..] == ks && kept[0] == raw;
    Prepend((c: Citation, r: RawCitation) => CitedBy(find, c, r), one.citations[0], rest.citations, kept);
    HitsOfAppend(one.highlights, rest.highlights);
    assert one.citations == [one.citations[0]];
    StartsOfStep(find, raw, ks);
    JoinNamesFirst(one.citations[0], one.highlights, rest.citations, rest.highlights, StartsOf(find, ks));
  }

  /** All citations of one comment, in order, with `find` as the search;
      empty quotes are dropped. */
  function ResolveAll(find: Finder, commentId: string, raws: seq<RawCitation>, counter: nat): (r: Resolved)
    ensures NumberedFrom(r.highlights, counter)
    ensures forall j :: 0 <= j < |r.highlights| ==> r.highlights[j].commentId == commentId
    ensures forall m :: 0 <= m < |r.citations| ==> r.citations[m].quote != ""
    ensures forall m :: 0 <= m < |r.citations| ==> Anchored(r.citations[m], r.highlights)
    ensures HitsOf(r.highlights) == AllFound(find, raws)
    ensures StoredQuotes(r.highlights) == QuotesFound(find, raws)
    ensures |r.citations| == |KeptRaws(raws)|
    ensures forall m :: 0 <= m < |r.citations| ==> CitedBy(find, r.citations[m], KeptRaws(raws)[m])
    ensures NamesFirst(r.citations, r.highlights, StartsOf(find, KeptRaws(raws)))
  {
    if |raws| == 0 then Resolved([], [])
    else if QuoteOf(raws[0]) == "" then
      assert KeptRaws(raws) == KeptRaws(raws[1..]);
      ResolveAll(find, commentId, raws[1..], counter)
    else
      assert KeptRaws(raws) == [raws[0]] + KeptRaws(raws[1..]);
      var one := Cite(find(raws[0]), QuoteOf(raws[0]), PageHint(raws[0].page), commentId, counter);
      var rest := ResolveAll(find, commentId, raws[1..], counter + |one.highlights|);
      JoinResolved(one, rest, counter, commentId);
      JoinFound(find, raws[0], KeptRaws(raws[1..]), one, rest);
      StoredQuotesAppend(one.highlights, rest.highlights);
      Resolved(one.citations + rest.citations, one.highlights + rest.highlights)
  }

  /** All citations of one comment, in order; empty quotes are dropped.
      Every rectangle found for a kept citation becomes a highlight, in
      order; each kept citation is resolved from its own search and names
      the first highlight made from it. */
  function ResolveCitations(paper: Paper, commentId: string, raws: seq<RawCitation>, counter: nat): (r: Resolved)
    ensures NumberedFrom(r.highlights, counter)
    ensures forall j :: 0 <= j < |r.highlights| ==> r.highlights[j].commentId == commentId
    ensures forall m :: 0 <= m < |r.citations| ==> r.citations[m].quote != ""
    ensures forall m :: 0 <= m < |r.citations| ==> Anchored(r.citations[m], r.highlights)
    ensures HitsOf(r.highlights) == AllLocated(paper, raws)
    ensures StoredQuotes(r.highlights) == QuotesFound(FinderOf(paper), raws)
    ensures |r.citations| == |KeptRaws(raws)|
    ensures forall m :: 0 <= m < |r.citations| ==> CitedAs(paper, r.citations[m], KeptRaws(raws)[m])
    ensures NamesFirst(r.citations, r.highlights, Starts(paper, KeptRaws(raws)))
  {
    ResolveAll(FinderOf(paper), commentId, raws, counter)
  }

  // ---------------------------------------------------------------------
  // Comments

  /** The comment made from `raw`: its fields or their defaults, the
      rectangles found for its kept citations as its highlights, each kept
      citation resolved, and the page of the first rectangle found (or the
      comment's own page hint). */
  ghost predicate Processed(find: Finder, c: Comment, raw: RawComment) {
    var hits := AllFound(find, raw.citations);
    var kept := KeptRaws(raw.citations);
    && c.title == raw.title.GetOr("Comment")
    && c.content == raw.content.GetOr("")
    && c.severity == raw.severity.GetOr("info")
    && c.page == (if |hits| > 0 then Some(hits[0].page) else PageHint(raw.page))
    && HitsOf(c.highlightRects) == hits
    && StoredQuotes(c.highlightRects) == QuotesFound(find, raw.citations)
    && |c.citations| == |kept|
    && (forall m :: 0 <= m < |c.citations| ==> CitedBy(find, c.citations[m], kept[m]))
    && NamesFirst(c.citations, c.highlightRects, StartsOf(find, kept))
  }

  /** One comment of reviewer `reviewerType` at position `i` of its reply. */
  function ProcessComment(find: Finder, reviewerType: string, i: nat, raw: RawComment, counter: nat): (c: Comment)
    ensures c.id == CommentId(reviewerType, i) && c.reviewerType == reviewerType
    ensures c.title == raw.title.GetOr("Comment")
    ensures c.content == raw.content.GetOr("")
    ensures c.severity == raw.severity.GetOr("info")
    ensures NumberedFrom(c.highlightRects, counter)
    ensures CommentConsistent(c)
    ensures c.page == if |c.highlightRects| > 0 then Some(c.highlightRects[0].page) else PageHint(raw.page)
    ensures Processed(find, c, raw)
  {
    var id := CommentId(reviewerType, i);
    var resolved := ResolveAll(find, id, raw.citations, counter);
    var hs := resolved.highlights;
    Comment(id, reviewerType, raw.title.GetOr("Comment"), raw.content.GetOr(""),
            if |hs| > 0 then Some(hs[0].page) else PageHint(raw.page),
            raw.severity.GetOr("info"), resolved.citations, hs)
  }

  /** The highlights of the comments, in comment order. */
  function AllRects(cs: seq<Comment>): seq<Highlight>
  {
    if |cs| == 0 then [] else cs[0].highlightRects + AllRects(cs[1..])
  }

  lemma {:induction false} AllRectsAppend(a: seq<Comment>, b: seq<Comment>)
    ensures AllRects(a + b) == AllRects(a) + AllRects(b)
  {
    if |a| > 0 {
      assert (a + b)[1..] == a[1..] + b;
      AllRectsAppend(a[1..], b);
    } else {
      assert a + b == b;
    }
  }

  datatype Batch = Batch(comments: seq<Comment>, highlights: seq<Highlight>)

  /** A consistent comment followed by a batch of consistent comments with
      matching highlights forms a batch with matching highlights. */
  lemma JoinBatch(c: Comment, rest: Batch, counter: nat)
    requires CommentConsistent(c) && NumberedFrom(c.highlightRects, counter)
    requires forall k :: 0 <= k < |rest.comments| ==> CommentConsistent(rest.comments[k])
    requires rest.highlights == AllRects(rest.comments)
    requires NumberedFrom(rest.highlights, counter + |c.highlightRects|)
    ensures var r := Batch([c] + rest.comments, c.highlightRects + rest.highlights);
            && (forall k :: 0 <= k < |r.comments| ==> CommentConsistent(r.comments[k]))
            && r.highlights == AllRects(r.comments)
            && NumberedFrom(r.highlights, counter)
  {
    var cs := [c] + rest.comments;
    NumberedAppend(c.highlightRects, rest.highlights, counter);
    assert cs[1..] == rest.comments;
    forall k | 0 <= k < |cs| ensures CommentConsistent(cs[k]) {
      if k > 0 { assert cs[k] == rest.comments[k - 1]; }
    }
  }

  /** Prepending the comment at position `i` to comments numbered from
      `i + 1` gives comments numbered from `i`. */
  lemma JoinIds(c: Comment, rest: seq<Comment>, reviewerType: string, i: nat)
    requires c.id == CommentId(reviewerType, i) && c.reviewerType == reviewerType
    requires forall k :: 0 <= k < |rest| ==>
               rest[k].id == CommentId(reviewerType, i + 1 + k) && rest[k].reviewerType == reviewerType
    ensures forall k :: 0 <= k < |rest| + 1 ==>
              ([c] + rest)[k].id == CommentId(reviewerType, i + k) && ([c] + rest)[k].reviewerType == reviewerType
  {
    forall k | 1 <= k < |rest| + 1
      ensures ([c] + rest)[k].id == CommentId(reviewerType, i + k) && ([c] + rest)[k].reviewerType == reviewerType
    {
      assert ([c] + rest)[k] == rest[k - 1];
    }
  }

  /** `for i, comment in enumerate(comments)` starting at position `i`. */
  function ProcessComments(find: Finder, reviewerType: string, raws: seq<RawComment>, i: nat, counter: nat): (r: Batch)
    ensures |r.comments| == |raws|
    ensures forall k :: 0 <= k < |raws| ==>
              r.comments[k].id == CommentId(reviewerType, i + k) && r.comments[k].reviewerType == reviewerType
    ensures forall k :: 0 <= k < |raws| ==> CommentConsistent(r.comments[k])
    ensures r.highlights == AllRects(r.comments)
    ensures NumberedFrom(r.highlights, counter)
    ensures forall k :: 0 <= k < |raws| ==> Processed(find, r.comments[k], raws[k])
  {
    if |raws| == 0 then Batch([], [])
    else
      var c := ProcessComment(find, reviewerType, i, raws[0], counter);
      var rest := ProcessComments(find, reviewerType, raws[1..], i + 1, counter + |c.highlightRects|);
      JoinBatch(c, rest, counter);
      JoinIds(c, rest.comments, reviewerType, i);
      Prepend((x: Comment, y: RawComment) => Processed(find, x, y), c, rest.comments, raws);
      Batch([c] + rest.comments, c.highlightRects + rest.highlights)
  }

  // ---------------------------------------------------------------------
  // The fold over reviewers

  /** The state is internally consistent: the counter counts the
      highlights, the highlights are numbered from 0 and are exactly the
      comments' highlights in order, and every comment is consistent. */
  ghost predicate WellFormed(a: Analysis) {
    && a.counter == |a.highlights|
    && NumberedFrom(a.highlights, 0)
    && a.highlights == AllRects(a.comments)
    && forall k :: 0 <= k < |a.comments| ==> CommentConsistent(a.comments[k])
  }

  /** The reviewer entry for `reviewerType` after `outcome`. */
  ghost predicate RecordFor(rec: ReviewerRecord, reviewerType: string, outcome: LlmOutcome) {
    && reviewerType in Registry
    && rec.reviewerType == reviewerType
    && rec.name == Registry[reviewerType].name
    && rec.icon == Registry[reviewerType].icon
    && (rec.status == Completed <==> outcome.Ok?)
    && (outcome.Ok? ==> rec.summary == SummaryOf(outcome.result))
    && (outcome.Err? ==> rec.summary == "Error: " + outcome.message)
  }

  /** The entry recorded for a known reviewer after its call. */
  function Record(reviewerType: string, outcome: LlmOutcome): (rec: ReviewerRecord)
    requires reviewerType in Registry
    ensures RecordFor(rec, reviewerType, outcome)
  {
    var persona := Registry[reviewerType];
    match outcome
    case Ok(result) => ReviewerRecord(reviewerType, persona.name, persona.icon, SummaryOf(result), Completed)
    case Err(message) => ReviewerRecord(reviewerType, persona.name, persona.icon, "Error: " + message, Error)
  }

  /** The comments and highlights a reviewer adds: none when its call
      failed, otherwise one comment per comment of its reply, numbered
      from 0. */
  function Contributed(find: Finder, reviewerType: string, outcome: LlmOutcome, counter: nat): (b: Batch)
    ensures outcome.Err? ==> b == Batch([], [])
    ensures outcome.Ok? ==>
              && |b.comments| == |outcome.result.comments|
              && forall k :: 0 <= k < |b.comments| ==> Processed(find, b.comments[k], outcome.result.comments[k])
    ensures forall k :: 0 <= k < |b.comments| ==>
              b.comments[k].id == CommentId(reviewerType, k) && b.comments[k].reviewerType == reviewerType
    ensures forall k :: 0 <= k < |b.comments| ==> CommentConsistent(b.comments[k])
    ensures b.highlights == AllRects(b.comments)
    ensures NumberedFrom(b.highlights, counter)
  {
    match outcome
    case Err(_) => Batch([], [])
    case Ok(result) => ProcessComments(find, reviewerType, result.comments, 0, counter)
  }

  /** Appending a reviewer's contribution keeps the state consistent. */
  lemma AppendKeepsWellFormed(st: Analysis, b: Batch)
    requires WellFormed(st)
    requires forall k :: 0 <= k < |b.comments| ==> CommentConsistent(b.comments[k])
    requires b.highlights == AllRects(b.comments)
    requires NumberedFrom(b.highlights, st.counter)
    ensures WellFormed(Analysis(st.reviewers, st.comments + b.comments, st.highlights + b.highlights,
                                st.counter + |b.highlights|))
  {
    var cs := st.comments + b.comments;
    NumberedAppend(st.highlights, b.highlights, 0);
    AllRectsAppend(st.comments, b.comments);
    forall k | 0 <= k < |cs| ensures CommentConsistent(cs[k]) {
      if k >= |st.comments| { assert cs[k] == b.comments[k - |st.comments|]; }
    }
  }

  /** The number of comments a reviewer adds: its reply's comments when it
      is known and its call succeeded, none otherwise. */
  function Added(reviewerType: string, outcome: LlmOutcome): nat {
    if reviewerType in Registry && outcome.Ok? then |outcome.result.comments| else 0
  }

  /** `c` is the comment made from comment `k` of the reply in `outcome`. */
  ghost predicate Emitted(find: Finder, c: Comment, reviewerType: string, outcome: LlmOutcome, k: nat) {
    && outcome.Ok?
    && k < |outcome.result.comments|
    && c.id == CommentId(reviewerType, k)
    && c.reviewerType == reviewerType
    && Processed(find, c, outcome.result.comments[k])
  }

  /** Every comment of `added` is the reply's comment at its own position. */
  ghost predicate AllEmitted(find: Finder, added: seq<Comment>, reviewerType: string, outcome: LlmOutcome) {
    forall k :: 0 <= k < |added| ==> Emitted(find, added[k], reviewerType, outcome, k)
  }

  /** One iteration of the loop over requested types: unknown types are
      skipped, a known one appends its entry and its contribution, the
      comments of its reply in reply order. */
  function Step(find: Finder, st: Analysis, reviewerType: string, outcome: LlmOutcome): (r: Analysis)
    requires WellFormed(st)
    ensures WellFormed(r)
    ensures reviewerType !in Registry ==> r == st
    ensures reviewerType in Registry ==> r.reviewers == st.reviewers + [Record(reviewerType, outcome)]
    ensures |r.comments| == |st.comments| + Added(reviewerType, outcome)
    ensures r.comments[..|st.comments|] == st.comments
    ensures AllEmitted(find, r.comments[|st.comments|..], reviewerType, outcome)
    ensures outcome.Err? ==> r.comments == st.comments && r.highlights == st.highlights
  {
    if reviewerType !in Registry then st
    else
      var b := Contributed(find, reviewerType, outcome, st.counter);
      AppendKeepsWellFormed(st, b);
      var cs := st.comments + b.comments;
      assert cs[..|st.comments|] == st.comments;
      assert cs[|st.comments|..] == b.comments;
      Analysis(st.reviewers + [Record(reviewerType, outcome)], cs,
               st.highlights + b.highlights, st.counter + |b.highlights|)
  }

  /** The positions of the requested types that are configured reviewers,
      in request order. */
  function KnownPositions(types: seq<string>): (ps: seq<nat>)
    ensures forall k :: 0 <= k < |ps| ==> ps[k] < |types| && types[ps[k]] in Registry
    ensures forall k, l :: 0 <= k < l < |ps| ==> ps[k] < ps[l]
    ensures forall i :: 0 <= i < |types| && types[i] in Registry ==> i in ps
  {
    if |types| == 0 then []
    else
      var n := |types| - 1;
      var init := KnownPositions(types[..n]);
      assert forall i :: 0 <= i < n ==> types[..n][i] == types[i];
      if types[n] in Registry then init + [n] else init
  }

  /** The number of reply comments over the known, successful requested
      types. */
  function ReplyComments(types: seq<string>, llm: nat -> LlmOutcome): nat {
    if |types| == 0 then 0
    else
      var n := |types| - 1;
      ReplyComments(types[..n], llm) + Added(types[n], llm(n))
  }

  /** The loop over `types`, request position `i` getting outcome `llm(i)`:
      one comment per comment of every successful known reviewer's reply. */
  function Run(find: Finder, types: seq<string>, llm: nat -> LlmOutcome): (r: Analysis)
    ensures WellFormed(r)
    ensures |r.comments| == ReplyComments(types, llm)
    decreases |types|, 1
  {
    if |types| == 0 then Analysis([], [], [], 0) else RunLast(find, types, llm)
  }

  /** The loop's last iteration: the state after all but the last
      requested type, stepped with the last one. `RunStep` states what it
      does. */
  function RunLast(find: Finder, types: seq<string>, llm: nat -> LlmOutcome): Analysis
    requires |types| > 0
    decreases |types|, 0
  {
    var n := |types| - 1;
    Step(find, Run(find, types[..n], llm), types[n], llm(n))
  }

  /** One more requested type: its entry is appended when the type is
      known; the comments so far stay in place, followed by one comment per
      comment of the type's reply when its call succeeded. */
  lemma RunStep(find: Finder, types: seq<string>, llm: nat -> LlmOutcome)
    requires |types| > 0
    ensures types[|types| - 1] !in Registry ==> Run(find, types, llm) == Run(find, types[..|types| - 1], llm)
    ensures types[|types| - 1] in Registry ==>
              Run(find, types, llm).reviewers
                == Run(find, types[..|types| - 1], llm).reviewers + [Record(types[|types| - 1], llm(|types| - 1))]
    ensures |Run(find, types, llm).comments|
              == |Run(find, types[..|types| - 1], llm).comments| + Added(types[|types| - 1], llm(|types| - 1))
    ensures Run(find, types, llm).comments[..|Run(find, types[..|types| - 1], llm).comments|]
              == Run(find, types[..|types| - 1], llm).comments
    ensures AllEmitted(find, Run(find, types, llm).comments[|Run(find, types[..|types| - 1], llm).comments|..],
                       types[|types| - 1], llm(|types| - 1))
  {
    assert Run(find, types, llm) == RunLast(find, types, llm);
  }

  /** `analyze_paper`: the requested types, or every configured type when
      none are given, each citation searched in `paper`. */
  function Analyze(paper: Paper, requested: Option<seq<string>>, llm: nat -> LlmOutcome): (r: Analysis)
    ensures WellFormed(r)
    ensures requested.None? ==> r == Run(FinderOf(paper), RegistryOrder, llm)
    ensures requested.Some? ==> r == Run(FinderOf(paper), requested.value, llm)
  {
    Run(FinderOf(paper), requested.GetOr(RegistryOrder), llm)
  }

  // ---------------------------------------------------------------------
  // What the loop records

  /** The reviewer entries are one per known requested type, in request
      order, each matching that position's outcome. */
  ghost predicate RecordsMatch(reviewers: seq<ReviewerRecord>, types: seq<string>, llm: nat -> LlmOutcome) {
    var ps := KnownPositions(types);
    && |reviewers| == |ps|
    && forall k :: 0 <= k < |reviewers| ==> RecordFor(reviewers[k], types[ps[k]], llm(ps[k]))
  }

  /** Requesting one more type appends its entry exactly when it is known. */
  lemma RecordsGrow(rs: seq<ReviewerRecord>, types: seq<string>, llm: nat -> LlmOutcome)
    requires |types| > 0 && RecordsMatch(rs, types[..|types| - 1], llm)
    ensures var n := |types| - 1;
            RecordsMatch(if types[n] in Registry then rs + [Record(types[n], llm(n))] else rs, types, llm)
  {
    var n := |types| - 1;
    var pre := KnownPositions(types[..n]);
    var ps := KnownPositions(types);
    var grown := if types[n] in Registry then rs + [Record(types[n], llm(n))] else rs;
    assert ps == if types[n] in Registry then pre + [n] else pre;
    forall k | 0 <= k < |grown| ensures RecordFor(grown[k], types[ps[k]], llm(ps[k])) {
      if k < |rs| {
        assert grown[k] == rs[k] && ps[k] == pre[k];
        assert types[..n][pre[k]] == types[pre[k]];
      }
    }
  }

  /** One reviewer entry per known requested type, in request order, with
      status and summary given by that reviewer's outcome. */
  lemma {:induction false} RunRecords(find: Finder, types: seq<string>, llm: nat -> LlmOutcome)
    ensures RecordsMatch(Run(find, types, llm).reviewers, types, llm)
  {
    if |types| > 0 {
      var n := |types| - 1;
      var st := Run(find, types[..n], llm);
      RunRecords(find, types[..n], llm);
      RunStep(find, types, llm);
      RecordsGrow(st.reviewers, types, llm);
    }
  }

  /** The comment comes from a known requested type whose call succeeded. */
  ghost predicate FromCompleted(c: Comment, types: seq<string>, llm: nat -> LlmOutcome) {
    exists i :: 0 <= i < |types| && types[i] == c.reviewerType && types[i] in Registry && llm(i).Ok?
  }

  /** The comment's id is `<reviewer type>_<position>`. */
  ghost predicate IdShaped(c: Comment) {
    exists i: nat :: c.id == CommentId(c.reviewerType, i)
  }

  /** Every comment comes from a known requested type whose call
      succeeded, and its id is `<type>_<n>`. */
  ghost predicate Traced(cs: seq<Comment>, types: seq<string>, llm: nat -> LlmOutcome) {
    forall k :: 0 <= k < |cs| ==> FromCompleted(cs[k], types, llm) && IdShaped(cs[k])
  }

  /** Comments traced to a prefix of the requested types stay traced when
      one more type is requested. */
  lemma TracedWiden(cs: seq<Comment>, types: seq<string>, llm: nat -> LlmOutcome)
    requires |types| > 0 && Traced(cs, types[..|types| - 1], llm)
    ensures Traced(cs, types, llm)
  {
    var n := |types| - 1;
    forall k | 0 <= k < |cs| ensures FromCompleted(cs[k], types, llm) {
      assert FromCompleted(cs[k], types[..n], llm);
      var i :| 0 <= i < n && types[..n][i] == cs[k].reviewerType && types[..n][i] in Registry && llm(i).Ok?;
      assert types[i] == types[..n][i];
    }
  }

  /** The comments the last requested type contributes are traced. */
  lemma BatchTraced(bs: seq<Comment>, types: seq<string>, llm: nat -> LlmOutcome)
    requires |types| > 0 && types[|types| - 1] in Registry
    requires |bs| > 0 ==> llm(|types| - 1).Ok?
    requires forall k :: 0 <= k < |bs| ==>
               bs[k].id == CommentId(types[|types| - 1], k) && bs[k].reviewerType == types[|types| - 1]
    ensures Traced(bs, types, llm)
  {
    var n := |types| - 1;
    forall k | 0 <= k < |bs| ensures FromCompleted(bs[k], types, llm) && IdShaped(bs[k]) {
      assert 0 <= n < |types| && types[n] == bs[k].reviewerType && types[n] in Registry && llm(n).Ok?;
      assert bs[k].id == CommentId(bs[k].reviewerType, k);
    }
  }

  lemma TracedAppend(a: seq<Comment>, b: seq<Comment>, types: seq<string>, llm: nat -> LlmOutcome)
    requires Traced(a, types, llm) && Traced(b, types, llm)
    ensures Traced(a + b, types, llm)
  {
    forall k | 0 <= k < |a + b| ensures FromCompleted((a + b)[k], types, llm) && IdShaped((a + b)[k]) {
      if k >= |a| { assert (a + b)[k] == b[k - |a|]; }
    }
  }

  /** Every comment comes from a known requested type whose call succeeded,
      and its id is `<type>_<n>`. */
  lemma {:induction false} RunComments(find: Finder, types: seq<string>, llm: nat -> LlmOutcome)
    ensures Traced(Run(find, types, llm).comments, types, llm)
  {
    if |types| > 0 {
      var n := |types| - 1;
      var st := Run(find, types[..n], llm);
      RunComments(find, types[..n], llm);
      RunStep(find, types, llm);
      TracedWiden(st.comments, types, llm);
      var cs := Run(find, types, llm).comments;
      var added := cs[|st.comments|..];
      assert cs == st.comments + added;
      if types[n] in Registry {
        BatchTraced(added, types, llm);
        TracedAppend(st.comments, added, types, llm);
      }
    }
  }

  /** `c` is the comment made from comment `k` of the reply to request
      position `i`, a known type. */
  ghost predicate EmittedFrom(find: Finder, c: Comment, types: seq<string>, llm: nat -> LlmOutcome, i: nat, k: nat) {
    && i < |types|
    && types[i] in Registry
    && Emitted(find, c, types[i], llm(i), k)
  }

  /** Comment `j` of the analysis for `types` is made from comment `k` of
      the reply to position `i`. */
  ghost predicate EmitsAt(find: Finder, types: seq<string>, llm: nat -> LlmOutcome, j: nat, i: nat, k: nat) {
    j < |Run(find, types, llm).comments| && EmittedFrom(find, Run(find, types, llm).comments[j], types, llm, i, k)
  }

  /** Requesting one more type keeps the comments so far in place. */
  lemma RunKeeps(find: Finder, types: seq<string>, llm: nat -> LlmOutcome, j: nat)
    requires |types| > 0 && j < |Run(find, types[..|types| - 1], llm).comments|
    ensures j < |Run(find, types, llm).comments|
    ensures Run(find, types, llm).comments[j] == Run(find, types[..|types| - 1], llm).comments[j]
  {
    var n := |types| - 1;
    RunStep(find, types, llm);
    var before := Run(find, types[..n], llm).comments;
    var cs := Run(find, types, llm).comments;
    assert cs[..|before|][j] == cs[j];
  }

  /** Comment `k` of the reply to position `i` comes right after the
      comments made for the earlier positions. */
  ghost predicate EmitsFrom(find: Finder, types: seq<string>, llm: nat -> LlmOutcome, i: nat, k: nat)
    requires i <= |types|
  {
    EmitsAt(find, types, llm, ReplyComments(types[..i], llm) + k, i, k)
  }

  /** The comments after those of the shorter request are made from the
      last type's reply, in reply order. */
  lemma RunEmits(find: Finder, types: seq<string>, llm: nat -> LlmOutcome, k: nat)
    requires |types| > 0 && k < Added(types[|types| - 1], llm(|types| - 1))
    ensures EmitsFrom(find, types, llm, |types| - 1, k)
  {
    RunStep(find, types, llm);
    EmittedAfter(find, Run(find, types, llm).comments, ReplyComments(types[..|types| - 1], llm), types, llm, k);
  }


  /** The `k`-th comment after `from` was emitted for the last type, so it is
      emitted for the last position of `types`. */
  lemma EmittedAfter(find: Finder, cs: seq<Comment>, from: nat, types: seq<string>, llm: nat -> LlmOutcome, k: nat)
    requires |types| > 0 && types[|types| - 1] in Registry
    requires from <= |cs| && AllEmitted(find, cs[from..], types[|types| - 1], llm(|types| - 1))
    requires k < |cs| - from
    ensures from + k < |cs| && EmittedFrom(find, cs[from + k], types, llm, |types| - 1, k)
  {
    assert cs[from..][k] == cs[from + k];
  }

  /** A comment made for a position of a shorter request is made for that
      position of the longer one too. */
  lemma EmittedWiden(find: Finder, c: Comment, types: seq<string>, llm: nat -> LlmOutcome, i: nat, k: nat)
    requires |types| > 0 && EmittedFrom(find, c, types[..|types| - 1], llm, i, k)
    ensures EmittedFrom(find, c, types, llm, i, k)
  {
    assert types[..|types| - 1][i] == types[i];
  }

  /** A comment of the shorter request keeps its place and its origin. */
  lemma EmitsWiden(find: Finder, types: seq<string>, llm: nat -> LlmOutcome, j: nat, i: nat, k: nat)
    requires |types| > 0 && EmitsAt(find, types[..|types| - 1], llm, j, i, k)
    ensures EmitsAt(find, types, llm, j, i, k)
  {
    var n := |types| - 1;
    RunKeeps(find, types, llm, j);
    EmittedWiden(find, Run(find, types[..n], llm).comments[j], types, llm, i, k);
  }

  /** A comment made for an earlier position keeps its place when one more
      type is requested. */
  lemma EmitsFromWiden(find: Finder, types: seq<string>, llm: nat -> LlmOutcome, i: nat, k: nat)
    requires i < |types| - 1 && EmitsFrom(find, types[..|types| - 1], llm, i, k)
    ensures EmitsFrom(find, types, llm, i, k)
  {
    var n := |types| - 1;
    assert types[..n][..i] == types[..i];
    EmitsWiden(find, types, llm, ReplyComments(types[..i], llm) + k, i, k);
  }


  /** Every comment of every successful known reviewer's reply reaches the
      analysis, processed, with id `<type>_<k>`: comment `k` of the reply to
      position `i` comes right after the comments of the earlier positions,
      at index `ReplyComments(types[..i], llm) + k`. */
  lemma {:induction false} RunCommentsComplete(find: Finder, types: seq<string>, llm: nat -> LlmOutcome, i: nat, k: nat)
    requires i < |types| && types[i] in Registry && llm(i).Ok?
    requires k < |llm(i).result.comments|
    ensures EmitsFrom(find, types, llm, i, k)
  {
    if i == |types| - 1 {
      RunEmits(find, types, llm, k);
    } else {
      assert types[..|types| - 1][i] == types[i];
      RunCommentsComplete(find, types[..|types| - 1], llm, i, k);
      EmitsFromWiden(find, types, llm, i, k);
    }
  }

  /** Conversely, every comment of the analysis is made from some comment
      of some successful known reviewer's reply. */
  lemma {:induction false} RunCommentsSound(find: Finder, types: seq<string>, llm: nat -> LlmOutcome, j: nat)
    requires j < |Run(find, types, llm).comments|
    ensures exists i: nat, k: nat :: EmitsAt(find, types, llm, j, i, k)
  {
    var n := |types| - 1;
    var before := ReplyComments(types[..n], llm);
    if j < before {
      RunCommentsSound(find, types[..n], llm, j);
      var i: nat, k: nat :| EmitsAt(find, types[..n], llm, j, i, k);
      EmitsWiden(find, types, llm, j, i, k);
      assert EmitsAt(find, types, llm, j, i, k);
    } else {
      RunEmits(find, types, llm, j - before);
      assert EmitsAt(find, types, llm, j, n, j - before);
    }
  }
}

=== FILE: review_properties.dfy ===
/** Properties of a whole analysis: identifiers are unique, every
    highlight belongs to a comment, every citation's highlight id resolves,
    and the reviewer list reflects every call. */
module ReviewProperties {
  import opened Wrappers
  import opened Text
  import opened Reply
  import opened Review

  // ---------------------------------------------------------------------
  // Where a highlight sits in the flat list

  lemma {:induction false} OwnerOf(cs: seq<Comment>, j: nat)
    requires j < |AllRects(cs)|
    ensures exists k, m :: 0 <= k < |cs| && 0 <= m < |cs[k].highlightRects|
                           && AllRects(cs)[j] == cs[k].highlightRects[m]
  {
    var h := cs[0].highlightRects;
    if j < |h| {
      assert AllRects(cs)[j] == cs[0].highlightRects[j];
    } else {
      OwnerOf(cs[1..], j - |h|);
      var k, m :| 0 <= k < |cs[1..]| && 0 <= m < |cs[1..][k].highlightRects|
                  && AllRects(cs[1..])[j - |h|] == cs[1..][k].highlightRects[m];
      assert AllRects(cs)[j] == cs[k + 1].highlightRects[m];
    }
  }

  lemma {:induction false} PlaceOf(cs: seq<Comment>, k: nat, m: nat)
    requires k < |cs| && m < |cs[k].highlightRects|
    ensures exists j :: 0 <= j < |AllRects(cs)| && AllRects(cs)[j] == cs[k].highlightRects[m]
  {
    if k == 0 {
      assert AllRects(cs)[m] == cs[0].highlightRects[m];
    } else {
      PlaceOf(cs[1..], k - 1, m);
      var j :| 0 <= j < |AllRects(cs[1..])| && AllRects(cs[1..])[j] == cs[1..][k - 1].highlightRects[m];
      assert AllRects(cs)[|cs[0].highlightRects| + j] == cs[k].highlightRects[m];
    }
  }

  // ---------------------------------------------------------------------
  // Identifiers and references

  /** `highlight_counter` makes every highlight id distinct. */
  lemma HighlightIdsUnique(a: Analysis)
    requires WellFormed(a)
    ensures forall j1, j2 :: 0 <= j1 < j2 < |a.highlights| ==> a.highlights[j1].id != a.highlights[j2].id
  {
    forall j1, j2 | 0 <= j1 < j2 < |a.highlights|
      ensures a.highlights[j1].id != a.highlights[j2].id
    {
      HighlightIdsDiffer(j1, j2);
    }
  }

  /** Every highlight's `comment_id` is the id of a comment of the analysis. */
  lemma HighlightsOwned(a: Analysis)
    requires WellFormed(a)
    ensures forall j :: 0 <= j < |a.highlights| ==>
              exists k :: 0 <= k < |a.comments| && a.highlights[j].commentId == a.comments[k].id
  {
    forall j | 0 <= j < |a.highlights|
      ensures exists k :: 0 <= k < |a.comments| && a.highlights[j].commentId == a.comments[k].id
    {
      OwnerOf(a.comments, j);
      var k, m :| 0 <= k < |a.comments| && 0 <= m < |a.comments[k].highlightRects|
                  && a.highlights[j] == a.comments[k].highlightRects[m];
      assert CommentConsistent(a.comments[k]);
    }
  }

  /** `c`'s highlight id names a highlight of `owner`, made for `c`'s quote,
      on the cited page. */
  ghost predicate ResolvesIn(c: Citation, owner: string, hs: seq<Highlight>) {
    c.highlightId.Some? ==>
      exists j :: 0 <= j < |hs| && MadeFor(hs[j], c.highlightId.value, c.page, c.quote) && hs[j].commentId == owner
  }

  /** Every citation has a non-empty quote, and every non-null citation
      highlight id is the id of a highlight of the same comment, made for
      that citation's quote, on the page the citation reports. */
  lemma CitationsResolve(a: Analysis)
    requires WellFormed(a)
    ensures forall k, m :: 0 <= k < |a.comments| && 0 <= m < |a.comments[k].citations| ==>
              a.comments[k].citations[m].quote != ""
              && ResolvesIn(a.comments[k].citations[m], a.comments[k].id, a.highlights)
  {
    forall k, m | 0 <= k < |a.comments| && 0 <= m < |a.comments[k].citations|
      ensures a.comments[k].citations[m].quote != ""
      ensures ResolvesIn(a.comments[k].citations[m], a.comments[k].id, a.highlights)
    {
      var c := a.comments[k];
      assert CommentConsistent(c);
      var cit := c.citations[m];
      if cit.highlightId.Some? {
        assert Anchored(cit, c.highlightRects);
        var i :| 0 <= i < |c.highlightRects| && MadeFor(c.highlightRects[i], cit.highlightId.value, cit.page, cit.quote);
        PlaceOf(a.comments, k, i);
      }
    }
  }

  /** Citation `m` of `c`, processed from `raw`, names the highlight made
      from the first rectangle its own search found. */
  ghost predicate NamesFirstFound(find: Finder, c: Comment, raw: RawComment, m: nat) {
    var kept := KeptRaws(raw.citations);
    var h := StartsOf(find, kept);
    && m < |kept| && m < |c.citations|
    && (c.citations[m].highlightId.Some? ==>
          && |find(kept[m])| > 0
          && h[m] < |c.highlightRects|
          && c.citations[m].highlightId == Some(c.highlightRects[h[m]].id)
          && HitsOf(c.highlightRects)[h[m]] == find(kept[m])[0])
  }

  lemma FirstFoundOf(find: Finder, c: Comment, raw: RawComment, m: nat)
    requires Processed(find, c, raw) && m < |c.citations|
    ensures NamesFirstFound(find, c, raw, m)
  {
    var kept := KeptRaws(raw.citations);
    assert CitedBy(find, c.citations[m], kept[m]);
    if c.citations[m].highlightId.Some? {
      StartsAreOwn(find, raw.citations, m);
      var h := StartsOf(find, kept)[m];
      assert AllFound(find, raw.citations)[h..h + |find(kept[m])|][0] == find(kept[m])[0];
    }
  }

  /** Every citation of an analysis that names a highlight names the first
      one found for its own quote, as `citation["highlight_id"]` is set from
      `highlights[0]`. */
  lemma CitationsNameFirstFound(find: Finder, types: seq<string>, llm: nat -> LlmOutcome, j: nat, m: nat)
    requires j < |Run(find, types, llm).comments| && m < |Run(find, types, llm).comments[j].citations|
    ensures exists i: nat, k: nat :: EmitsAt(find, types, llm, j, i, k)
              && NamesFirstFound(find, Run(find, types, llm).comments[j], llm(i).result.comments[k], m)
  {
    RunCommentsSound(find, types, llm, j);
    var i: nat, k: nat :| EmitsAt(find, types, llm, j, i, k);
    FirstFoundOf(find, Run(find, types, llm).comments[j], llm(i).result.comments[k], m);
  }

  /** No known type is requested twice. */
  ghost predicate DistinctKnown(types: seq<string>) {
    forall i, j :: 0 <= i < j < |types| && types[i] in Registry ==> types[i] != types[j]
  }

  /** The comments' ids are pairwise distinct. */
  ghost predicate UniqueIds(cs: seq<Comment>) {
    forall k1, k2 :: 0 <= k1 < k2 < |cs| ==> cs[k1].id != cs[k2].id
  }

  /** With no known type requested twice, comment ids are unique. */
  lemma {:induction false} CommentIdsUnique(find: Finder, types: seq<string>, llm: nat -> LlmOutcome)
    requires DistinctKnown(types)
    ensures UniqueIds(Run(find, types, llm).comments)
  {
    if |types| > 0 {
      var n := |types| - 1;
      var st := Run(find, types[..n], llm);
      assert DistinctKnown(types[..n]);
      CommentIdsUnique(find, types[..n], llm);
      RunStep(find, types, llm);
      RunComments(find, types[..n], llm);
      var cs := Run(find, types, llm).comments;
      var added := cs[|st.comments|..];
      assert cs == st.comments + added;
      UniqueAppend(types, llm, st.comments, added);
    }
  }

  /** Comments of the earlier requested types followed by the comments of
      the last type, numbered from 0, still have unique ids. */
  lemma UniqueAppend(types: seq<string>, llm: nat -> LlmOutcome, earlier: seq<Comment>, added: seq<Comment>)
    requires |types| > 0 && DistinctKnown(types)
    requires UniqueIds(earlier)
    requires Traced(earlier, types[..|types| - 1], llm)
    requires forall k :: 0 <= k < |added| ==> added[k].id == CommentId(types[|types| - 1], k)
    ensures UniqueIds(earlier + added)
  {
    var n := |types| - 1;
    var all := earlier + added;
    forall k1, k2 | 0 <= k1 < k2 < |all|
      ensures all[k1].id != all[k2].id
    {
      if k2 < |earlier| {
        assert all[k1] == earlier[k1] && all[k2] == earlier[k2];
      } else if k1 >= |earlier| {
        assert all[k1] == added[k1 - |earlier|] && all[k2] == added[k2 - |earlier|];
        CommentIdsDiffer(types[n], k1 - |earlier|, types[n], k2 - |earlier|);
      } else {
        assert all[k1] == earlier[k1] && all[k2] == added[k2 - |earlier|];
        EarlierTypeDiffers(types, llm, earlier[k1], all[k2], k2 - |earlier|);
      }
    }
  }

  /** A comment of an earlier reviewer has an id no comment of the last
      requested type can have. */
  lemma EarlierTypeDiffers(types: seq<string>, llm: nat -> LlmOutcome, earlier: Comment, later: Comment, p: nat)
    requires |types| > 0 && DistinctKnown(types)
    requires FromCompleted(earlier, types[..|types| - 1], llm) && IdShaped(earlier)
    requires later.id == CommentId(types[|types| - 1], p)
    ensures earlier.id != later.id
  {
    var n := |types| - 1;
    var i :| 0 <= i < n && types[..n][i] == earlier.reviewerType && types[..n][i] in Registry && llm(i).Ok?;
    var q: nat :| earlier.id == CommentId(earlier.reviewerType, q);
    assert types[i] != types[n];
    CommentIdsDiffer(types[i], q, types[n], p);
  }

  /** Requesting a type twice repeats its comment ids: the second run's
      first comment has the same id as the first run's. */
  lemma RepeatedTypeRepeatsIds(find: Finder, llm: nat -> LlmOutcome)
    requires llm(0).Ok? && llm(1).Ok?
    requires |llm(0).result.comments| > 0 && |llm(1).result.comments| > 0
    ensures var a := Run(find, ["editor_overview", "editor_overview"], llm);
            var first := |llm(0).result.comments|;
            first < |a.comments| && a.comments[0].id == a.comments[first].id
  {
    var types := ["editor_overview", "editor_overview"];
    assert types[..1] == ["editor_overview"];
    assert types[..1][..0] == [];
    RunStep(find, types[..1], llm);
    RunStep(find, types, llm);
    var one := Run(find, types[..1], llm).comments;
    var two := Run(find, types, llm).comments;
    assert one[0] == one[0..][0];
    assert two[|one|] == two[|one|..][0];
    assert two[0] == two[..|one|][0];
  }

  // ---------------------------------------------------------------------
  // Reviewer entries

  /** A reviewer whose call failed contributes no comments, provided its
      type is not requested again. */
  lemma FailedReviewerSilent(find: Finder, types: seq<string>, llm: nat -> LlmOutcome, i: nat)
    requires i < |types| && llm(i).Err?
    requires forall j :: 0 <= j < |types| && j != i ==> types[j] != types[i]
    ensures var a := Run(find, types, llm);
            forall k :: 0 <= k < |a.comments| ==> a.comments[k].reviewerType != types[i]
  {
    var a := Run(find, types, llm);
    RunComments(find, types, llm);
    forall k | 0 <= k < |a.comments|
      ensures a.comments[k].reviewerType != types[i]
    {
      assert FromCompleted(a.comments[k], types, llm);
      var i' :| 0 <= i' < |types| && types[i'] == a.comments[k].reviewerType
                && types[i'] in Registry && llm(i').Ok?;
      assert i' != i;
    }
  }

  lemma {:induction false} AllKnownPositions(types: seq<string>)
    requires forall i :: 0 <= i < |types| ==> types[i] in Registry
    ensures |KnownPositions(types)| == |types|
    ensures forall k :: 0 <= k < |types| ==> KnownPositions(types)[k] == k
  {
    if |types| > 0 {
      var n := |types| - 1;
      AllKnownPositions(types[..n]);
    }
  }

  /** The configured types are distinct: they differ in their first letter. */
  lemma RegistryOrderDistinct()
    ensures DistinctKnown(RegistryOrder)
  {
    var initials := "emncr";
    assert forall i :: 0 <= i < |RegistryOrder| ==> |RegistryOrder[i]| > 0 && RegistryOrder[i][0] == initials[i];
    forall i, j | 0 <= i < j < |RegistryOrder|
      ensures RegistryOrder[i] != RegistryOrder[j]
    {
      assert initials[i] != initials[j];
    }
  }

  /** When every requested type is known, each gets its entry, in request
      order. */
  lemma AllKnownRecorded(find: Finder, types: seq<string>, llm: nat -> LlmOutcome)
    requires forall i :: 0 <= i < |types| ==> types[i] in Registry
    ensures |Run(find, types, llm).reviewers| == |types|
    ensures forall k :: 0 <= k < |types| ==> RecordFor(Run(find, types, llm).reviewers[k], types[k], llm(k))
  {
    AllKnownPositions(types);
    RunRecords(find, types, llm);
  }

  /** With no types requested, every configured reviewer runs once, in
      registry order, and comment ids are unique. */
  lemma DefaultRunsEveryReviewer(paper: Paper, llm: nat -> LlmOutcome)
    ensures var a := Analyze(paper, None, llm);
            && |a.reviewers| == |RegistryOrder|
            && (forall k :: 0 <= k < |RegistryOrder| ==>
                  RecordFor(a.reviewers[k], RegistryOrder[k], llm(k)))
            && UniqueIds(a.comments)
  {
    var find := FinderOf(paper);
    assert forall i :: 0 <= i < |RegistryOrder| ==> RegistryOrder[i] in Registry;
    AllKnownRecorded(find, RegistryOrder, llm);
    RegistryOrderDistinct();
    CommentIdsUnique(find, RegistryOrder, llm);
  }
}

=== FILE: text.dfy ===
/** The few Python `str` operations the backend relies on: `strip()`,
    `split(sep)`, `in`, slicing and `str(n)` for natural numbers. */
module Text {
  import opened Wrappers

  /** Python's `str.isspace()` for a single character (the Unicode
      whitespace set CPython uses). */
  predicate IsSpace(c: char) {
    || c == ' '
    || ('\t' <= c <= '\r')
    || ('\U{1C}' <= c <= '\U{1F}')
    || c == '\U{85}' || c == '\U{A0}' || c == '\U{1680}'
    || ('\U{2000}' <= c <= '\U{200A}')
    || c == '\U{2028}' || c == '\U{2029}' || c == '\U{202F}'
    || c == '\U{205F}' || c == '\U{3000}'
  }

  /** The smaller of two integers; slices `s[:n]` stop at `Min(n, |s|)`. */
  function Min(a: int, b: int): int {
    if a <= b then a else b
  }

  predicate AllSpace(s: string) {
    forall i :: 0 <= i < |s| ==> IsSpace(s[i])
  }

  /** Neither end of `s` is whitespace. */
  predicate IsStripped(s: string) {
    s == [] || (!IsSpace(s[0]) && !IsSpace(s[|s| - 1]))
  }

  /** The first position at or after `i` that is not whitespace, or `|s|`. */
  function LeadFrom(s: string, i: nat): (lo: nat)
    requires i <= |s|
    ensures i <= lo <= |s|
    ensures forall k :: i <= k < lo ==> IsSpace(s[k])
    ensures lo < |s| ==> !IsSpace(s[lo])
    decreases |s| - i
  {
    if i < |s| && IsSpace(s[i]) then LeadFrom(s, i + 1) else i
  }

  /** The end of the text before position `j` once trailing whitespace is
      dropped: every character in `[hi, j)` is whitespace and `s[hi - 1]`
      is not. */
  function TrailFrom(s: string, j: nat): (hi: nat)
    requires j <= |s|
    ensures hi <= j
    ensures forall k :: hi <= k < j ==> IsSpace(s[k])
    ensures hi > 0 ==> !IsSpace(s[hi - 1])
  {
    if j > 0 && IsSpace(s[j - 1]) then TrailFrom(s, j - 1) else j
  }

  /** Python's `s.strip()`: `s` without the whitespace at either end
      (`StripIsSlice` says where the result sits in `s`). */
  function Strip(s: string): (r: string)
    ensures IsStripped(r)
    ensures |r| <= |s|
  {
    var lo := LeadFrom(s, 0);
    var hi := TrailFrom(s, |s|);
    if hi <= lo then "" else s[lo..hi]
  }

  /** `r` sits in `s` at `i` with only whitespace on either side. */
  predicate PaddedAt(s: string, r: string, i: int) {
    OccursAt(s, r, i) && AllSpace(s[..i]) && AllSpace(s[i + |r|..])
  }

  /** `s` is `r` with some whitespace added at either end. */
  ghost predicate Padded(s: string, r: string) {
    exists i :: PaddedAt(s, r, i)
  }

  /** `s.strip()` is the piece of `s` between a run of leading and a run of
      trailing whitespace. */
  lemma StripIsSlice(s: string)
    ensures Padded(s, Strip(s))
  {
    var lo := LeadFrom(s, 0);
    var hi := TrailFrom(s, |s|);
    if hi <= lo {
      assert lo == |s|;
      assert OccursAt(s, Strip(s), |s|);
      assert s[..|s|] == s[..lo];
      assert PaddedAt(s, Strip(s), |s|);
    } else {
      assert OccursAt(s, Strip(s), lo);
      assert PaddedAt(s, Strip(s), lo);
    }
  }

  /** The characterisation in `StripIsSlice` determines the result: a
      stripped piece of `s` with only whitespace around it is `s.strip()`. */
  lemma StripUnique(s: string, r: string, i: nat)
    requires IsStripped(r) && PaddedAt(s, r, i)
    ensures r == Strip(s)
  {
    var lo := LeadFrom(s, 0);
    var hi := TrailFrom(s, |s|);
    assert forall k :: 0 <= k < i ==> IsSpace(s[k]) by {
      forall k | 0 <= k < i ensures IsSpace(s[k]) { assert s[..i][k] == s[k]; }
    }
    assert forall k :: i + |r| <= k < |s| ==> IsSpace(s[k]) by {
      forall k | i + |r| <= k < |s| ensures IsSpace(s[k]) { assert s[i + |r|..][k - i - |r|] == s[k]; }
    }
    if |r| > 0 {
      assert s[i] == r[0] && s[i + |r| - 1] == r[|r| - 1];
      assert lo == i;
      assert hi == i + |r|;
      assert s[lo..hi] == r;
    } else {
      assert lo == |s|;
    }
  }

  /** Stripping a stripped string changes nothing, so `strip()` is idempotent. */
  lemma StripOfStripped(s: string)
    requires IsStripped(s)
    ensures Strip(s) == s
  {
    if |s| > 0 {
      assert LeadFrom(s, 0) == 0;
      assert TrailFrom(s, |s|) == |s|;
    }
  }

  lemma StripIdempotent(s: string)
    ensures Strip(Strip(s)) == Strip(s)
  {
    StripOfStripped(Strip(s));
  }

  // ---------------------------------------------------------------------
  // Substring search

  /** `pat` occurs in `s` starting at index `i`. */
  predicate OccursAt(s: string, pat: string, i: int) {
    0 <= i && i + |pat| <= |s| && s[i..i + |pat|] == pat
  }

  /** Python's `pat in s`. */
  predicate Contains(s: string, pat: string) {
    exists i :: 0 <= i <= |s| && OccursAt(s, pat, i)
  }

  function FindFrom(s: string, pat: string, start: nat): (r: Option<nat>)
    decreases |s| - start
    ensures r.Some? ==> start <= r.value && OccursAt(s, pat, r.value)
    ensures r.Some? ==> forall k :: start <= k < r.value ==> !OccursAt(s, pat, k)
    ensures r.None? ==> forall k :: start <= k ==> !OccursAt(s, pat, k)
  {
    if start + |pat| > |s| then None
    else if s[start..start + |pat|] == pat then Some(start)
    else FindFrom(s, pat, start + 1)
  }

  /** The index of the first occurrence of `pat` in `s` (Python's `s.find`),
      or `None` when `pat` does not occur. */
  function Find(s: string, pat: string): (r: Option<nat>)
    ensures r.Some? <==> Contains(s, pat)
    ensures r.Some? ==> OccursAt(s, pat, r.value)
    ensures r.Some? ==> forall k :: 0 <= k < r.value ==> !OccursAt(s, pat, k)
  {
    FindFrom(s, pat, 0)
  }

  /** An occurrence inside a prefix is an occurrence in the whole string. */
  lemma OccursInPrefix(s: string, n: nat, pat: string, k: int)
    requires n <= |s|
    requires OccursAt(s[..n], pat, k)
    ensures OccursAt(s, pat, k)
  {
    assert s[..n][k..k + |pat|] == s[k..k + |pat|];
  }

  /** An occurrence inside a piece of `s` is an occurrence in `s`, shifted. */
  lemma OccursWithin(s: string, r: string, i: int, pat: string, k: int)
    requires OccursAt(s, r, i) && OccursAt(r, pat, k)
    ensures OccursAt(s, pat, i + k)
  {
    forall j | 0 <= j < |pat|
      ensures s[i + k..i + k + |pat|][j] == pat[j]
    {
      assert s[i + k + j] == r[k + j];
      assert r[k..k + |pat|][j] == pat[j];
    }
  }

  /** An occurrence in `s` that lies inside a piece of `s` is an occurrence
      in the piece: a piece without one at the matching place rules it out. */
  lemma NotOccursWithin(s: string, r: string, i: int, pat: string, k: int)
    requires OccursAt(s, r, i) && i <= k && k + |pat| <= i + |r|
    requires !OccursAt(r, pat, k - i)
    ensures !OccursAt(s, pat, k)
  {
    var a, b := s[k..k + |pat|], r[k - i..k - i + |pat|];
    forall m | 0 <= m < |pat| ensures a[m] == b[m] {
      assert s[i..i + |r|][k - i + m] == s[k + m];
    }
    assert a == b;
  }

  /** A piece of a string without `pat` has no `pat` either. */
  lemma NotContainsWithin(s: string, r: string, i: int, pat: string)
    requires OccursAt(s, r, i) && !Contains(s, pat)
    ensures !Contains(r, pat)
  {
    forall k | 0 <= k <= |r| && OccursAt(r, pat, k) ensures false {
      OccursWithin(s, r, i, pat, k);
    }
  }

  /** `stop` is where the first `pat` at or after `start` begins, or the
      end of `s` when there is none. */
  predicate RunsToNext(s: string, pat: string, start: nat, stop: nat) {
    && start <= stop <= |s|
    && (stop == |s| || OccursAt(s, pat, stop))
    && forall k :: start <= k < stop ==> !OccursAt(s, pat, k)
  }

  /** The stop is the one the forward search finds. */
  lemma RunsToNextIsFind(s: string, pat: string, start: nat, stop: nat)
    requires |pat| > 0 && RunsToNext(s, pat, start, stop)
    ensures stop == FindFrom(s, pat, start).GetOr(|s|)
  {
    match FindFrom(s, pat, start)
    case Some(i) =>
      assert !OccursAt(s, pat, stop) || stop <= i;
      assert !OccursAt(s, pat, i) || i >= stop;
    case None =>
      assert !OccursAt(s, pat, stop);
  }

  /** `split(pat)[0]` of a suffix of `s` is the piece of `s` from where the
      suffix starts up to the next `pat` at or after it (or the end). */
  lemma BeforeInSuffix(s: string, start: nat, pat: string)
    requires |pat| > 0 && start <= |s|
    ensures var r := Before(s[start..], pat);
            && r == s[start..start + |r|]
            && RunsToNext(s, pat, start, start + |r|)
  {
    var r := Before(s[start..], pat);
    assert r == s[start..start + |r|];
    assert start + |r| < |s| ==> s[start..][|r|..|r| + |pat|] == s[start + |r|..start + |r| + |pat|];
    forall k | start <= k < start + |r| ensures !OccursAt(s, pat, k) {
      assert !OccursAt(s[start..], pat, k - start);
      if k + |pat| <= |s| {
        assert s[start..][k - start..k - start + |pat|] == s[k..k + |pat|];
      }
    }
  }

  /** Python's `s.split(pat)[0]`: everything before the first `pat`, or all
      of `s` when `pat` does not occur. */
  function Before(s: string, pat: string): (r: string)
    requires |pat| > 0
    ensures |r| <= |s| && r == s[..|r|]
    ensures !Contains(r, pat)
    ensures r == s || OccursAt(s, pat, |r|)
    ensures forall k :: 0 <= k < |r| ==> !OccursAt(s, pat, k)
  {
    match Find(s, pat)
    case Some(i) =>
      var r := s[..i];
      assert !Contains(r, pat) by {
        forall k | OccursAt(r, pat, k) ensures false {
          OccursInPrefix(s, i, pat, k);
        }
      }
      r
    case None => s
  }

  /** Python's `s.split(pat)[1]` for an `s` that contains `pat`: the text
      between the first occurrence of `pat` and the next one (or the end). */
  function SplitSecond(s: string, pat: string): (r: string)
    requires |pat| > 0 && Contains(s, pat)
    ensures var start := Find(s, pat).value + |pat|;
            && start + |r| <= |s| && r == s[start..start + |r|]
            && !Contains(r, pat)
            && RunsToNext(s, pat, start, start + |r|)
  {
    var start := Find(s, pat).value + |pat|;
    BeforeInSuffix(s, start, pat);
    Before(s[start..], pat)
  }

  // ---------------------------------------------------------------------
  // Splitting on one character

  /** Python's `sep.join(parts)`. */
  function Join(parts: seq<string>, sep: char): string
  {
    if |parts| == 0 then ""
    else if |parts| == 1 then parts[0]
    else parts[0] + [sep] + Join(parts[1..], sep)
  }

  /** Python's `s.split(sep)` for a one-character separator: the pieces
      between separators, always at least one. */
  function Split(s: string, sep: char): (parts: seq<string>)
    ensures |parts| >= 1
    ensures forall k :: 0 <= k < |parts| ==> sep !in parts[k]
    ensures Join(parts, sep) == s
  {
    if |s| == 0 then [""]
    else if s[0] == sep then
      var rest := Split(s[1..], sep);
      assert s == [sep] + s[1..];
      [""] + rest
    else
      var rest := Split(s[1..], sep);
      var parts := [[s[0]] + rest[0]] + rest[1..];
      assert parts[1..] == rest[1..];
      assert forall k :: 1 <= k < |parts| ==> parts[k] == rest[k];
      assert s == [s[0]] + s[1..];
      parts
  }

  // ---------------------------------------------------------------------
  // Decimal rendering of natural numbers

  predicate IsDigit(c: char) {
    '0' <= c <= '9'
  }

  predicate AllDigits(s: string) {
    forall i :: 0 <= i < |s| ==> IsDigit(s[i])
  }

  function DigitChar(d: nat): (c: char)
    requires d < 10
  {
    "0123456789"[d]
  }

  function DigitValue(c: char): nat
    requires IsDigit(c)
  {
    (c as int) - ('0' as int)
  }

  /** Python's `str(n)` for `n >= 0`: decimal digits, no leading zero. */
  function NatToString(n: nat): (r: string)
    ensures |r| >= 1 && AllDigits(r)
    ensures |r| > 1 ==> r[0] != '0'
  {
    if n < 10 then [DigitChar(n)]
    else NatToString(n / 10) + [DigitChar(n % 10)]
  }

  /** The number a string of decimal digits denotes (Python's `int(s)`). */
  function ParseDigits(s: string): nat
    requires AllDigits(s)
  {
    if |s| == 0 then 0
    else 10 * ParseDigits(s[..|s| - 1]) + DigitValue(s[|s| - 1])
  }

  /** `int(str(n)) == n`. */
  lemma {:induction false} ParseNatToString(n: nat)
    ensures ParseDigits(NatToString(n)) == n
  {
    if n >= 10 {
      var s := NatToString(n);
      assert s[..|s| - 1] == NatToString(n / 10);
      ParseNatToString(n / 10);
    }
  }

  lemma NatToStringInjective(a: nat, b: nat)
    requires NatToString(a) == NatToString(b)
    ensures a == b
  {
    ParseNatToString(a);
    ParseNatToString(b);
  }
}

=== FILE: wrappers.dfy ===
/** Optional values, standing in for Python's `None`-or-value and for
    dictionary lookups that may miss. */
module Wrappers {

  datatype Option<+T> = None | Some(value: T) {

    /** The value, or `default` when absent (Python's `d.get(k, default)`). */
    function GetOr(default: T): T {
      match this
      case Some(v) => v
      case None => default
    }
  }
}
